=== FILE: README.md ===
# AI Land orchestration core, in Dafny

This project models the orchestration core of the Magento 2 "AI Land" module (NeutromeLabs AiLand). The core turns an admin's request into CMS HTML through two stages of chat completions.

- **Stage 1.** A thinking model writes a technical design plan.
- **Stage 2.** A rendering model writes the HTML from that plan.
- **Improve.** An `improve` action either retries Stage 2 from a stored plan or improves existing HTML.

The model covers these parts of the module:

- the request routing of `AiGenerator::generate`;
- the context text it builds once per request;
- the ordered message lists of the design and HTML generators;
- the base-prompt selection and reference-image attachment of `PromptService`;
- the bounded tool-calling loop of `ApiClient::getCompletion`, with its payload shaping, "retry without tools" fallback and Authorization header filter;
- the tool registry `AiToolPool` with its one concrete tool, `ResearchTool`.

Everything is pure functions over immutable values:

- **Messages.** A `Message` has a role, content (absent, text, or a list of text and image parts), tool calls, and a tool-call id and name.
- **PHP strings.** A PHP string is `seq<char>` with one `char` per byte, so `strlen` is `|s|`.
- **PHP semantics.** These are written out in `PhpText`:
  - `empty()` on a string (`""` and `"0"` are empty);
  - `trim` and its character set (space, `\t`, `\n`, `\r`, `\0`, `\x0B`);
  - the PCRE `\s` class (space, `\t`, `\n`, `\x0B`, `\f`, `\r`);
  - ASCII `strtolower`.

Modules, in dependency order:

- `Wrappers`: `Option` and `Result`.
- `PhpText`: the string built-ins.
- `Conversation`: messages, the context record, and the shared "system, then context, then stage messages" prompt shape.
- `ScopeConfig`: the API key and model-per-kind lookups.
- `Tools` and `ToolPool`: the tool capability, `ResearchTool`, and the validated registry.
- `ApiClient`: the Authorization header, the payload, the transport fallback and the completion loop.
- `PromptService`: base prompts and reference images.
- `Collaborators`: the services the generators call, passed as values.
- `ContextBuilder`: `buildContextData`.
- `DesignGenerator` and `HtmlGenerator`: the stage requests.
- `FenceCleanup`: the Markdown-fence cleanup.
- `AiGenerator`: `generate`.

Everything outside the core becomes a parameter:

- the HTTP transport, a deterministic function from payload to response body or raised error;
- JSON decoding of response bodies and of tool arguments;
- tool execution (for tools other than `ResearchTool`);
- the encryptor;
- the prompt-file reader;
- the Tailwind configuration;
- the store, product and category lookups;
- `strip_tags`.

The completion loop is modelled twice, and the two are proved to agree:

- a recursive reference function `ApiClient.Round`, including the throw after the loop;
- a `while` loop, `ApiClient.CompletionLoop`.

Points where the code's behaviour is easy to misread:

- **Empty improvement.** An empty improvement instruction makes `improveHtml` raise. `generate` catches that exception, so the caller receives a soft result (`design` null, HTML `"Error improving HTML: …"`) rather than an exception.
- **Response decoding.** The response body is decoded outside the `try` block of `makeAiApiCall`. A body the JSON serializer rejects therefore escapes with the serializer's own exception, not a wrapped one (`LoopError.MalformedBody`).
- **Unguarded retry.** The "retry without tools" fallback has no guard. The tool-less request is sent again on every repeated refusal. With a deterministic transport that refuses both requests, the call never returns (`CallOutcome.Diverges`, `LoopError.RetriesForever`). It is not a single retry.
- **Tool pool.** The tool pool is an immutable value, so it cannot change after construction.

## Model

| member | source | states |
|---|---|---|
| ScopeConfig.ParseKind | src/Model/ApiClient.php:503-512 | a model kind is recognised exactly for "thinking" and "rendering"; every other string is unknown |
| ScopeConfig.ConfiguredModel | src/Model/AiGenerator.php:400-422 | the model of a kind is never empty: the configured value when it is not null, "" or "0", otherwise that kind's hard-coded default |
| ScopeConfig.ModelForKind | src/Model/ApiClient.php:498-519 | null exactly for an unknown kind; otherwise the configured model with its default, so the result is truthy whenever it is present |
| ScopeConfig.ApiKey | src/Model/ApiClient.php:480-489 | a key is returned exactly when a truthy value is stored, and it is the decryption of that value |
| ScopeConfig.EmptyModelConfigUsesDefault | src/Model/ApiClient.php:514-518 | an empty or missing model setting falls back to deepseek-r1 for thinking and deepseek-chat-v3-0324 for rendering |
| Tools.ResearchDefinitionShape | src/Model/Tool/ResearchTool.php:55-75 | the research definition is a well-formed function tool named "research" whose object parameters have the single required string property "prompt"; it depends on no configuration or store |
| Tools.ResearchAlwaysAnswers | src/Model/Tool/ResearchTool.php:80-89 | the research tool never fails and answers "I dont know" for every argument map and store |
| ToolPool.FirstForeign | src/Model/AiToolPool.php:39-45 | the validation loop stops at a position exactly when some entry does not implement the tool interface, and that position is the first such entry |
| ToolPool.NewPool | src/Model/AiToolPool.php:36-47 | construction fails exactly when some entry does not implement the tool interface, with the message naming the first such key; on success the pool holds every key in order, each mapped to its tool |
| ToolPool.GetTool | src/Model/AiToolPool.php:56-62 | a lookup succeeds exactly for a registered identifier |
| ToolPool.AllToolIdentifiers | src/Model/AiToolPool.php:69-72 | the identifiers are exactly the keys the pool maps |
| ToolPool.GetToolFindsRegistered | src/Model/AiToolPool.php:58-61 | looking up a registered key returns the very tool registered under it |
| ToolPool.GetToolRejectsUnregistered | src/Model/AiToolPool.php:58-60 | looking up an unregistered key raises the not-found error naming it |
| ToolPool.IdentifiersInRegistrationOrder | src/Model/AiToolPool.php:69-72 | the identifiers are the registered keys in registration order |
| Conversation.ContextMessages | src/Model/HtmlGenerator.php:103-108 | the store-context and data-source-context user messages each appear exactly when their text is non-empty, store context first |
| Conversation.Prompt | src/Model/DesignGenerator.php:99-107 | a stage request is its system message, then the context messages, then the stage's own messages, each at its position |
| Conversation.PromptWellFormed | src/Model/HtmlGenerator.php:100-117 | a stage request whose own messages are user messages has one system message, first, and user messages after it |
| Conversation.PromptMembers | src/Model/DesignGenerator.php:99-121 | every message of a stage request is its system message, a context message or one of the stage's messages |
| PromptService.Family | src/Model/Service/PromptService.php:117-127 | 'product' and 'category' select their own family; every other type, null included, selects the generic family |
| PromptService.BasePromptPathDistinguishes | src/Model/Service/PromptService.php:117-127 | two base-prompt lookups read the same config path exactly when they agree on family and on the interactive flag |
| PromptService.BasePrompt | src/Model/Service/PromptService.php:112-137 | the base prompt is "Generate content based on the provided context." when the selected setting is null, "" or "0", and the trimmed setting otherwise |
| PromptService.WithImage | src/Model/Service/PromptService.php:155-172 | the new last-message content ends with the image part: text content becomes [text, image]; parts starting with a text part keep all parts and gain the image; any other shape becomes [text("(Previous content)"), image] |
| PromptService.AddReferenceImage | src/Model/Service/PromptService.php:148-188 | no usable URL leaves the list unchanged; a final user message gains the trimmed URL in place and nothing else changes; otherwise exactly one "Reference Image:" user message is appended; either way the list ends in the image part |
| PromptService.ReferenceImageKeepsPromptShape | src/Model/Service/PromptService.php:152-184 | attaching an image keeps a stage request well formed, and a request with a user message keeps its length |
| ApiClient.RequestHeaders | src/Model/ApiClient.php:403-410 | with a non-empty key the list is the filtered list followed by exactly one bearer header for the key, the only Authorization header left; an empty key leaves the list alone |
| ApiClient.WithoutAuthorization | src/Model/ApiClient.php:406-408 | the filter keeps exactly the headers that do not start with "authorization:" case-insensitively, and leaves a list without such headers unchanged |
| ApiClient.WithoutAuthorizationAppend | src/Model/ApiClient.php:406-408 | filtering a concatenation is the concatenation of the filtered parts, so the kept headers keep their order and multiplicity |
| ApiClient.WithoutAuthorizationSingle | src/Model/ApiClient.php:406-408 | a single header is dropped exactly when it starts with "authorization:" in any letter case |
| ApiClient.RequestHeadersIdempotent | src/Model/ApiClient.php:403-410 | building the header list twice gives the same list as building it once, so the header is never duplicated |
| ApiClient.MakePayload | src/Model/ApiClient.php:234-242 | the payload keeps model and messages, and carries the tools and tool_choice "auto" exactly when the tool list is non-empty |
| ApiClient.RetryDivergesIff | src/Model/ApiClient.php:269-273 | the call never returns exactly when the provider refuses tool use both for the request and for its tool-less resend |
| ApiClient.RetryResendsWithoutTools | src/Model/ApiClient.php:269-273 | after a tool-use refusal the same model and messages are resent with neither tools nor tool_choice, and that answer is returned |
| ApiClient.OtherOutcomesSettleAtOnce | src/Model/ApiClient.php:268-280 | without the refusal one request is made: a body is returned as is, a localized error is rethrown with its message, and any other error is wrapped with the log identifier |
| ApiClient.ToolCallReply | src/Model/ApiClient.php:163-200 | every call gets one tool message with the call's id and name ("unknown" for null); a malformed call gets the fixed invalid-structure text; a well-formed one gets the tool output or "Error executing tool: " and the error |
| ApiClient.ToolReplies | src/Model/ApiClient.php:163-201 | a batch of n tool calls yields exactly n tool messages, the k-th answering the k-th call |
| ApiClient.UnknownToolIsReported | src/Model/ApiClient.php:181-200 | a call naming an unregistered tool is answered in the conversation with the not-found error, not raised |
| ApiClient.UndecodableArgumentsAreReported | src/Model/ApiClient.php:181-200 | arguments that do not decode are answered with the decoder's error, not raised |
| ApiClient.ResearchCallAnswered | src/Model/ApiClient.php:181-191 | a well-formed call to the registered research tool is answered with "I dont know" |
| ApiClient.Iteration | src/Model/ApiClient.php:131-213 | one pass only appends to the conversation, never reports a configuration error or the post-loop error, continues only before the last iteration with a longer conversation, and succeeds only with the trimmed content of a final reply |
| ApiClient.SuccessIsTheReply | src/Model/ApiClient.php:139-151 | a pass succeeds only when the response carried no error and a message, and that reply is the one message appended |
| ApiClient.Round | src/Model/ApiClient.php:131-218 | the loop starts at least one and at most five rounds, only appends to the conversation, and a success is the trimmed content of a last reply that asks for no tools |
| ApiClient.PostLoopThrowUnreachable | src/Model/ApiClient.php:216-218 | the "without a final response" throw after the loop can never be reached |
| ApiClient.ProviderErrorRaises | src/Model/ApiClient.php:139-143 | a response carrying an error message ends the loop in that round with "AI Service Error" naming the round's log identifier and the provider's message, appending nothing |
| ApiClient.MissingMessageRaises | src/Model/ApiClient.php:145-149 | a response with no error and no first message ends the loop in that round with the unexpected-format error, appending nothing |
| ApiClient.AbsentContentRaises | src/Model/ApiClient.php:206-211 | a reply with no tool calls and null content ends the loop with the empty-content error, after the reply has been appended |
| ApiClient.FinalReplyEndsLoop | src/Model/ApiClient.php:205-213 | a reply with no tool calls and some content ends the loop after that round, returning its trimmed content |
| ApiClient.LastRoundToolCallsRaise | src/Model/ApiClient.php:155-160 | tool calls in the fifth reply raise the max-iterations error without executing any call |
| ApiClient.ToolRoundAppendsRepliesInOrder | src/Model/ApiClient.php:152-203 | an earlier tool-call round appends the assistant message verbatim, then one tool message per call in call order, and carries on with the next round |
| ApiClient.AppendToolReplies | src/Model/ApiClient.php:163-201 | the inner loop appends exactly the tool replies of the batch, in order |
| ApiClient.CompletionLoop | src/Model/ApiClient.php:129-218 | the `for` loop gives the same result, conversation and number of rounds as the reference definition |
| ApiClient.Registered | src/Model/ApiClient.php:117-127 | the resolvable identifiers are exactly the requested ones the pool holds |
| ApiClient.RegisteredAppend | src/Model/ApiClient.php:117-127 | the resolvable identifiers of a concatenation are those of each part, in request order and with repeats kept |
| ApiClient.ResolveToolDefinitions | src/Model/ApiClient.php:117-127 | the definitions are those of the resolvable identifiers, position by position; every requested identifier the pool holds contributes its definition, and nothing else does |
| ApiClient.ResolveToolDefinitionsAppend | src/Model/ApiClient.php:117-127 | resolving a concatenation resolves each part in turn, so definitions follow request order, once per occurrence |
| ApiClient.ResolveToolDefinitionsSingle | src/Model/ApiClient.php:117-127 | one identifier yields its tool's definition when the pool holds it and nothing otherwise |
| ApiClient.ToolsSentIffOneResolves | src/Model/ApiClient.php:117-133 | tools reach the payload exactly when at least one requested identifier resolves |
| ApiClient.GetCompletion | src/Model/ApiClient.php:101-219 | a missing key or an unknown kind raises before any request; no round is started exactly when one of those is raised; at most five rounds; the conversation only grows; success is the trimmed final content |
| ContextBuilder.OneLinePerNonEmptyValue | src/Model/AiGenerator.php:349-353 | the data-source text has exactly one line per value that is not null, "" or "0" |
| ContextBuilder.EmptyValueAddsNothing | src/Model/AiGenerator.php:375-379 | an empty value contributes nothing, wherever it sits among the fields |
| ContextBuilder.FirstPage | src/Model/AiGenerator.php:358-368 | at most ten product names, a prefix of the collection's names |
| ContextBuilder.StoreText | src/Model/AiGenerator.php:316-333 | a found store yields its name line, its base URL line, and a locale line exactly when the locale is not null, "" or "0"; a missing one yields the note naming the store id |
| ContextBuilder.DataSourceText | src/Model/AiGenerator.php:336-386 | no text without both a type and an id, or for a type other than product and category; field lines for a found entity; the note for a missing one |
| ContextBuilder.BuildContextAsWritten | src/Model/AiGenerator.php:311-392 | both context strings are trimmed, and the returned context carries no data-source type |
| ContextBuilder.BuildContext | src/Model/HtmlGenerator.php:111 | the corrected builder: the same context strings as `buildContextData`, with the request's data-source type recorded for the stage builders to read |
| ContextBuilder.StoreContextNeverEmpty | src/Model/AiGenerator.php:316-333 | the store context is never empty: a name line or the note is always there |
| DesignGenerator.DesignGoal | src/Model/DesignGenerator.php:165-167 | the Stage 1 goal uses the caller's type only when there is data-source text, and is always the non-interactive prompt |
| DesignGenerator.InstructionText | src/Model/DesignGenerator.php:169-175 | the instruction is trimmed and starts with "Content Goal:"; without a custom prompt it is the labelled goal with its trailing whitespace removed |
| DesignGenerator.InstructionWithoutPrompt | src/Model/DesignGenerator.php:169-175 | with no custom prompt and a trimmed goal the instruction is exactly "Content Goal: " and the goal |
| DesignGenerator.InstructionWithPrompt | src/Model/DesignGenerator.php:169-175 | with a custom prompt holding at least one non-whitespace character, the instruction is the goal line, then "User's Custom Instructions: " and the prompt without its trailing whitespace |
| DesignGenerator.InstructionWithBlankPrompt | src/Model/DesignGenerator.php:169-175 | a whitespace-only prompt is not empty, so the instructions line is added, and the final trim leaves the goal line followed by the bare "User's Custom Instructions:" label |
| DesignGenerator.DesignUserPrompt | src/Model/DesignGenerator.php:163-176 | the design user prompt is trimmed and begins with the goal label |
| DesignGenerator.DesignMessages | src/Model/DesignGenerator.php:99-121 | system, context, the GraphQL note when interactive, and the user prompt last; well formed; every content is text |
| DesignGenerator.GraphQlNoteIffInteractive | src/Model/DesignGenerator.php:109-118 | the Stage 1 request contains the GraphQL note exactly when an interactive page is requested |
| DesignGenerator.DesignImageAgreesWithService | src/Model/DesignGenerator.php:123-146 | on the Stage 1 messages the inline image step keeps the count, turns the last message into [text, image], and agrees with the shared image helper; its fallback branch is never taken |
| DesignGenerator.DesignRequest | src/Model/DesignGenerator.php:92-146 | an empty design system prompt is refused with its message; otherwise the Stage 1 messages with the image attached |
| DesignGenerator.GenerateDesign | src/Model/DesignGenerator.php:79-152 | a missing system prompt fails before the model is asked; otherwise the thinking model's answer to the Stage 1 request |
| HtmlGenerator.GoalType | src/Model/HtmlGenerator.php:111 | the goal's type is the context's type when there is data-source text, and null otherwise |
| HtmlGenerator.FromDesignMessages | src/Model/HtmlGenerator.php:100-117 | system, context, content goal, design plan, then the Tailwind message when configured; well formed |
| HtmlGenerator.FromDesignRequest | src/Model/HtmlGenerator.php:94-120 | an empty HTML system prompt is refused with its message; otherwise the Stage 2 messages with the image attached |
| HtmlGenerator.GenerateHtmlFromDesign | src/Model/HtmlGenerator.php:80-127 | a missing system prompt fails before the model is asked; otherwise the rendering model's answer |
| HtmlGenerator.ImproveMessages | src/Model/HtmlGenerator.php:167-186 | system, context, current HTML ("(empty)" for falsy content), Tailwind reference, content goal, and the improvement request last; well formed |
| HtmlGenerator.ImproveRequest | src/Model/HtmlGenerator.php:157-189 | an empty instruction is refused before the system prompt is read; then a missing system prompt is refused; otherwise the improvement messages with the image |
| HtmlGenerator.ImproveHtml | src/Model/HtmlGenerator.php:143-196 | the two refusals come before the model is asked; otherwise the rendering model's answer |
| HtmlGenerator.ExtraInstructions | src/Model/HtmlGenerator.php:257-259 | the additional-instructions message exists exactly for a non-empty prompt |
| HtmlGenerator.RetryMessages | src/Model/HtmlGenerator.php:238-259 | system, context, design plan, Tailwind reference, content goal, and the additional instructions after the goal exactly for a non-empty prompt; well formed |
| HtmlGenerator.RetryRequest | src/Model/HtmlGenerator.php:232-262 | an empty HTML system prompt is refused with the retry message; otherwise the retry messages with the image |
| HtmlGenerator.RetryHtmlFromDesign | src/Model/HtmlGenerator.php:212-269 | a missing system prompt fails before the model is asked; otherwise the rendering model's answer |
| HtmlGenerator.ImageJoinsLastStageMessage | src/Model/HtmlGenerator.php:115-120 | the image joins whatever message is last: the Tailwind message when there is one, else the design plan; the count is unchanged |
| HtmlGenerator.RequestsAreWellFormed | src/Model/HtmlGenerator.php:100-120 | every request of the three builders is well formed and the image adds no message of its own |
| HtmlGenerator.GoalIgnoresTypeWithoutDataSourceText | src/Model/HtmlGenerator.php:110-113 | without data-source text the content goal is the generic one whatever type the context carries |
| FenceCleanup.StripLeadingFence | src/Model/AiGenerator.php:278 | only a leading fence is touched: exactly the three backticks, an "html" tag in any case when one follows, and the whitespace after them are removed, and the rest is kept |
| FenceCleanup.StripTrailingFence | src/Model/AiGenerator.php:279 | only a closing fence at the end, or before a final newline, is touched: exactly the fence and the whitespace before it are removed, and a final newline stays |
| FenceCleanup.CleanHtml | src/Model/AiGenerator.php:277-284 | the cleaned HTML is trimmed and never longer than the input |
| FenceCleanup.UnfencedIsOnlyTrimmed | src/Model/AiGenerator.php:277-284 | text with no fence at either end is only trimmed |
| FenceCleanup.FenceRoundTrip | src/Model/AiGenerator.php:277-284 | fencing a trimmed body, untagged or tagged "html" in any case, with or without a final newline, and cleaning it gives the body back |
| FenceCleanup.CleanHtmlExample | src/Model/AiGenerator.php:278-283 | "```HTML\n<p>Hi</p>\n```\n" cleans to "<p>Hi</p>" |
| AiGenerator.GenerateStages | src/Model/AiGenerator.php:162-212 | the design is absent exactly when Stage 1 fails, and is otherwise the Stage 1 answer |
| AiGenerator.ImproveStages | src/Model/AiGenerator.php:214-263 | the retry path returns the stored plan as design, on success and failure alike; the standard improvement returns no design (the HTML of each outcome is stated by the lemmas below) |
| AiGenerator.Dispatch | src/Model/AiGenerator.php:136-285 | given the stages' context: raises exactly for a missing key, for a request with neither prompt nor data-source type, or for an unknown action, each with its message; for improve a design comes back exactly on the retry path |
| AiGenerator.Generate | src/Model/AiGenerator.php:136-285 | the same raising cases and retry-path design, with every stage run on the context `buildContextData` builds as written |
| AiGenerator.GenerateCorrected | src/Model/HtmlGenerator.php:111 | the same raising cases, with every stage run on the context that records the data-source type |
| AiGenerator.CorrectionOnlyMattersWithType | src/Model/AiGenerator.php:160 | without a data-source type the corrected `generate` returns exactly what the one as written returns |
| AiGenerator.Stage1FailureIsSoft | src/Model/AiGenerator.php:169-187 | a Stage 1 failure returns no design and the uncleaned Stage 1 error text; Stage 2 does not run |
| AiGenerator.Stage2FailureKeepsDesign | src/Model/AiGenerator.php:195-212 | a Stage 2 failure returns the Stage 1 design with the Stage 2 error text |
| AiGenerator.GenerateSuccessIsCleaned | src/Model/AiGenerator.php:277-284 | two successful stages return the design and the cleaned, trimmed HTML |
| AiGenerator.EmptyImprovementIsSoft | src/Model/AiGenerator.php:243-262 | an empty improvement instruction comes back as a soft "Error improving HTML: …" result with no design |
| AiGenerator.RetryFailureKeepsPlan | src/Model/AiGenerator.php:223-241 | a failed retry still returns the stored design plan with the retry error text |
| AiGenerator.RetrySuccessIsCleaned | src/Model/AiGenerator.php:221-234 | a successful retry returns the stored plan and the cleaned, trimmed HTML |
| AiGenerator.ImproveSuccessIsCleaned | src/Model/AiGenerator.php:243-255 | a successful standard improvement returns no design and the cleaned, trimmed HTML |
| AiGenerator.ImproveFailureIsSoft | src/Model/AiGenerator.php:256-262 | any failure of a standard improvement returns no design and "Error improving HTML: " with the error text, uncleaned |
| AiGenerator.AsWrittenRenderingGoalIsGeneric | src/Model/AiGenerator.php:388-391 | with the context as written, every rendering stage gets the generic content goal |
| AiGenerator.CorrectedRenderingGoalFollowsType | src/Model/HtmlGenerator.php:111-113 | with the type in the context, a product or category with context text reads its own goal setting, and a static page gets the same goal as Stage 1 |

## Left out

- HTTP transport: cURL, timeouts and HTTP status handling in `makeRequest` are network I/O. The transport is a deterministic oracle from payload to body or error.
- HTTP calls outside the completion loop: `getAccountStatus` and `getModelDetails` are not part of this model.
- Logging: every logger call is left out, since it has no effect on results.
- JSON: the serializer is left out. Decoding a body and decoding tool arguments are oracles that may fail.
- Scalar tool arguments: arguments that decode to a scalar would make PHP raise a `TypeError` at `execute`, which is an `Error` the loop does not catch. That case is left out; the decoder oracle yields an argument map or a failure.
- Missing API method: the generators call `callOpenRouterApi` (src/Model/HtmlGenerator.php:123, src/Model/DesignGenerator.php:148), which the `ApiClient` class does not define. The completion service is a parameter returning the text or the error message. The fatal `Error` an undefined method raises in PHP is not modelled.
- Other `Error` throwables: none of them are modelled, since `generate` only catches `LocalizedException`.
- Translation: every message, the error texts and the soft-error HTML included, goes through Magento's `__()`. The model uses the untranslated source strings, and takes the returned `Phrase` as its rendered text. A store locale with a translation dictionary would show different text.
- Collaborators: the encryptor, the prompt-file reader, the Tailwind configuration (`ThemeService`), the store, product and category repositories and `strip_tags` are external. Each is a parameter.
- `Collaborators.Services`: `promptFile` is not constrained to return trimmed text, as `getPromptFromFile` does (src/Model/Service/PromptService.php:95). Nothing in the core depends on it.
- `ContextBuilder.FieldLines`: the values are taken as already rendered strings. PHP's `(string)` rendering of the float final price and of integer ids, and the `(int)` cast of the source id, are left to the catalog oracle.
- `DesignGenerator.AttachDesignImage`: requires every message to have text content. That is the only shape `generateDesign` builds, and its `$originalText` is always a string there.
- Unreachable AiGenerator branches: the "model not configured" throws (src/Model/AiGenerator.php:165-167, 191-193, 216-218) can never fire, because the configured model falls back to a non-empty default (`ScopeConfig.ConfiguredModel`). They are omitted.
- Null HTML branch: the `$generatedHtml === null` branch (src/Model/AiGenerator.php:268-275) is unreachable, because every path that reaches it has set the HTML to a string. It is omitted.
- Controllers, blocks and the browser script: admin controllers, blocks, the store selector, the prompt templates and the browser-side script are UI and persistence glue outside the core.

## Findings

| source | as written | input that shows it | evidently intended | confidence | as-written member | corrected member |
|---|---|---|---|---|---|---|
| src/Model/AiGenerator.php:388-391 | `buildContextData` returns only the two context strings. The three rendering builders read `data_source_type` from that array (src/Model/HtmlGenerator.php:111, 182, 253) and always find it missing, so they use the generic base prompt. | `generate` with action "generate", data-source type "product" and the id of an existing product with a non-empty SKU. Stage 1 reads the product base-prompt setting; Stage 2 reads the generic one. | The context carries the request's data-source type, so Stage 2, improve and retry read that type's own goal setting (its interactive variant for an interactive page), which is the same goal as Stage 1 for a static page. | high, not executed | AiGenerator.AsWrittenRenderingGoalIsGeneric | AiGenerator.CorrectedRenderingGoalFollowsType |

The as-written context builder is `ContextBuilder.BuildContextAsWritten`, and `AiGenerator.Generate` runs the stages on its result. The corrected builder is `ContextBuilder.BuildContext`, used by `AiGenerator.GenerateCorrected`; `AiGenerator.CorrectedRenderingGoalFollowsType` proves the intended property about it.

=== FILE: ai_generator.dfy ===
/** `AiGenerator::generate`: the entry point that checks the request, builds the
    context once, routes 'generate' through the design and rendering stages and
    'improve' through a retry of Stage 2 or a standard improvement, turns stage
    errors into soft results, and cleans the HTML on the success path. */
module AiGenerator {
  import opened Wrappers
  import opened PhpText
  import opened Conversation
  import opened ScopeConfig
  import opened PromptService
  import opened Collaborators
  import opened ContextBuilder
  import opened DesignGenerator
  import opened HtmlGenerator
  import opened FenceCleanup

  const ApiKeyMissing :=
    "OpenRouter API Key is not configured. Please configure it in Stores > Configuration > NeutromeLabs > AI Landings."
  const PromptRequired := "A custom prompt is required for generation if no Product or Category is selected."
  const Stage1ErrorPrefix := "Error generating design (Stage 1): "
  const Stage2ErrorPrefix := "Error generating HTML (Stage 2): "
  const RetryErrorPrefix := "Error retrying HTML generation (Stage 2): "
  const ImproveErrorPrefix := "Error improving HTML: "

  /** Existing HTML shorter than this many bytes counts as a failed render. */
  const RetryContentLimit: nat := 300

  function InvalidAction(action: string): string {
    "Invalid action type specified: " + action
  }

  /** The arguments of `generate`. */
  datatype Request = Request(
    prompt: string,
    action: string,
    dataSourceType: Option<string>,
    sourceId: Option<string>,
    storeId: int,
    designPlan: Option<string>,
    currentContent: Option<string>,
    imageUrl: Option<string>,
    interactive: bool)

  /** The array `generate` returns: `['design' => ?string, 'html' => string]`. */
  datatype Outcome = Outcome(design: Option<string>, html: string)

  /** `!empty($designPlan) && strlen((string)$currentContent) < 300`. */
  predicate TakesRetryPath(req: Request) {
    Truthy(req.designPlan) && |req.currentContent.GetOr("")| < RetryContentLimit
  }

  /** The checks that raise before any stage runs, and the action check. */
  predicate Raises(svc: Services, req: Request) {
    || !Truthy(ApiKey(svc.config, svc.decrypt))
    || (IsEmpty(req.prompt) && !Truthy(req.dataSourceType))
    || (req.action != "generate" && req.action != "improve")
  }

  /** The 'generate' action: Stage 1 with the thinking model, then Stage 2 with
      the rendering model. */
  function GenerateStages(svc: Services, req: Request, ctx: ContextData): (o: Outcome)
    ensures o.design.None? <==> GenerateDesign(svc, ConfiguredModel(svc.config, Thinking), req.prompt, ctx,
                                               req.dataSourceType, req.imageUrl, req.interactive).Failure?
    ensures o.design.Some? ==> o.design.value == GenerateDesign(svc, ConfiguredModel(svc.config, Thinking), req.prompt, ctx,
                                                                 req.dataSourceType, req.imageUrl, req.interactive).value
  {
    var thinking := ConfiguredModel(svc.config, Thinking);
    match GenerateDesign(svc, thinking, req.prompt, ctx, req.dataSourceType, req.imageUrl, req.interactive)
    case Failure(e) => Outcome(None, Stage1ErrorPrefix + e)
    case Success(design) =>
      var rendering := ConfiguredModel(svc.config, Rendering);
      match GenerateHtmlFromDesign(svc, rendering, design, ctx, req.imageUrl, req.interactive)
      case Failure(e) => Outcome(Some(design), Stage2ErrorPrefix + e)
      case Success(html) => Outcome(Some(design), CleanHtml(html))
  }

  /** The 'improve' action: a retry of Stage 2 from the stored design plan when
      the current content is short, otherwise a standard improvement. */
  function ImproveStages(svc: Services, req: Request, ctx: ContextData): (o: Outcome)
    ensures TakesRetryPath(req) ==> o.design == req.designPlan
    ensures !TakesRetryPath(req) ==> o.design.None?
  {
    var rendering := ConfiguredModel(svc.config, Rendering);
    if TakesRetryPath(req) then
      match RetryHtmlFromDesign(svc, rendering, req.designPlan.value, req.prompt, ctx, req.imageUrl, req.interactive)
      case Failure(e) => Outcome(req.designPlan, RetryErrorPrefix + e)
      case Success(html) => Outcome(req.designPlan, CleanHtml(html))
    else
      match ImproveHtml(svc, rendering, req.prompt, req.currentContent, ctx, req.imageUrl, req.interactive)
      case Failure(e) => Outcome(None, ImproveErrorPrefix + e)
      case Success(html) => Outcome(None, CleanHtml(html))
  }

  /** The checks and the action switch of `generate`, given the context the
      stages see. It raises only for a missing key, a request with neither a
      prompt nor a data source, or an unknown action; every stage error comes
      back as a soft result. */
  function Dispatch(svc: Services, req: Request, ctx: ContextData): (r: Result<Outcome, string>)
    ensures r.Failure? <==> Raises(svc, req)
    ensures !Truthy(ApiKey(svc.config, svc.decrypt)) ==> r == Failure(ApiKeyMissing)
    ensures Truthy(ApiKey(svc.config, svc.decrypt)) && IsEmpty(req.prompt) && !Truthy(req.dataSourceType)
            ==> r == Failure(PromptRequired)
    ensures r.Failure? && r.error != ApiKeyMissing && r.error != PromptRequired ==> r.error == InvalidAction(req.action)
    ensures r.Success? && req.action == "improve" ==>
      (r.value.design.Some? <==> TakesRetryPath(req)) && (TakesRetryPath(req) ==> r.value.design == req.designPlan)
  {
    if !Truthy(ApiKey(svc.config, svc.decrypt)) then Failure(ApiKeyMissing)
    else if IsEmpty(req.prompt) && !Truthy(req.dataSourceType) then Failure(PromptRequired)
    else if req.action == "generate" then Success(GenerateStages(svc, req, ctx))
    else if req.action == "improve" then Success(ImproveStages(svc, req, ctx))
    else Failure(InvalidAction(req.action))
  }

  /** The context every stage of a request sees: `buildContextData` as written,
      without the data-source type. */
  function RequestContext(catalog: Catalog, req: Request): ContextData {
    BuildContextAsWritten(catalog, req.dataSourceType, req.sourceId, req.storeId)
  }

  /** `generate` as written: the entry checks, then the stages with the context
      `buildContextData` builds. */
  function Generate(svc: Services, catalog: Catalog, req: Request): (r: Result<Outcome, string>)
    ensures r.Failure? <==> Raises(svc, req)
    ensures !Truthy(ApiKey(svc.config, svc.decrypt)) ==> r == Failure(ApiKeyMissing)
    ensures Truthy(ApiKey(svc.config, svc.decrypt)) && IsEmpty(req.prompt) && !Truthy(req.dataSourceType)
            ==> r == Failure(PromptRequired)
    ensures r.Failure? && r.error != ApiKeyMissing && r.error != PromptRequired ==> r.error == InvalidAction(req.action)
    ensures r.Success? && req.action == "improve" ==>
      (r.value.design.Some? <==> TakesRetryPath(req)) && (TakesRetryPath(req) ==> r.value.design == req.designPlan)
    ensures r.Success? && req.action == "generate" ==>
      r.value == GenerateStages(svc, req, BuildContextAsWritten(catalog, req.dataSourceType, req.sourceId, req.storeId))
    ensures r.Success? && req.action == "improve" ==>
      r.value == ImproveStages(svc, req, BuildContextAsWritten(catalog, req.dataSourceType, req.sourceId, req.storeId))
  {
    Dispatch(svc, req, RequestContext(catalog, req))
  }

  /** The context with the data-source type recorded, which the stage builders
      read when they choose a content goal. */
  function CorrectedRequestContext(catalog: Catalog, req: Request): ContextData {
    BuildContext(catalog, req.dataSourceType, req.sourceId, req.storeId)
  }

  /** `generate` with the corrected context builder. */
  function GenerateCorrected(svc: Services, catalog: Catalog, req: Request): (r: Result<Outcome, string>)
    ensures r.Failure? <==> Raises(svc, req)
    ensures r.Success? && req.action == "generate" ==>
      r.value == GenerateStages(svc, req, BuildContext(catalog, req.dataSourceType, req.sourceId, req.storeId))
    ensures r.Success? && req.action == "improve" ==>
      r.value == ImproveStages(svc, req, BuildContext(catalog, req.dataSourceType, req.sourceId, req.storeId))
  {
    Dispatch(svc, req, CorrectedRequestContext(catalog, req))
  }

  /** The two builders differ only in the recorded type, so without a
      data-source type the corrected `generate` is the one as written. */
  lemma CorrectionOnlyMattersWithType(svc: Services, catalog: Catalog, req: Request)
    requires req.dataSourceType.None?
    ensures GenerateCorrected(svc, catalog, req) == Generate(svc, catalog, req)
  {
    assert CorrectedRequestContext(catalog, req) == RequestContext(catalog, req);
  }

  /** A Stage 1 failure is returned with no design and the error text, uncleaned;
      Stage 2 does not run. */
  lemma Stage1FailureIsSoft(svc: Services, catalog: Catalog, req: Request)
    requires !Raises(svc, req) && req.action == "generate"
    requires GenerateDesign(svc, ConfiguredModel(svc.config, Thinking), req.prompt, RequestContext(catalog, req),
                            req.dataSourceType, req.imageUrl, req.interactive).Failure?
    ensures Generate(svc, catalog, req) == Success(Outcome(None, Stage1ErrorPrefix +
      GenerateDesign(svc, ConfiguredModel(svc.config, Thinking), req.prompt, RequestContext(catalog, req),
                     req.dataSourceType, req.imageUrl, req.interactive).error))
  {
  }

  /** A Stage 2 failure keeps the design Stage 1 produced next to the error text. */
  lemma Stage2FailureKeepsDesign(svc: Services, catalog: Catalog, req: Request, design: string)
    requires !Raises(svc, req) && req.action == "generate"
    requires GenerateDesign(svc, ConfiguredModel(svc.config, Thinking), req.prompt, RequestContext(catalog, req),
                            req.dataSourceType, req.imageUrl, req.interactive) == Success(design)
    requires GenerateHtmlFromDesign(svc, ConfiguredModel(svc.config, Rendering), design, RequestContext(catalog, req),
                                    req.imageUrl, req.interactive).Failure?
    ensures Generate(svc, catalog, req) == Success(Outcome(Some(design), Stage2ErrorPrefix +
      GenerateHtmlFromDesign(svc, ConfiguredModel(svc.config, Rendering), design, RequestContext(catalog, req),
                             req.imageUrl, req.interactive).error))
  {
  }

  /** Both stages succeeding gives the design and the cleaned HTML. */
  lemma GenerateSuccessIsCleaned(svc: Services, catalog: Catalog, req: Request, design: string, html: string)
    requires !Raises(svc, req) && req.action == "generate"
    requires GenerateDesign(svc, ConfiguredModel(svc.config, Thinking), req.prompt, RequestContext(catalog, req),
                            req.dataSourceType, req.imageUrl, req.interactive) == Success(design)
    requires GenerateHtmlFromDesign(svc, ConfiguredModel(svc.config, Rendering), design, RequestContext(catalog, req),
                                    req.imageUrl, req.interactive) == Success(html)
    ensures Generate(svc, catalog, req) == Success(Outcome(Some(design), CleanHtml(html)))
    ensures IsTrimmed(Generate(svc, catalog, req).value.html)
  {
  }

  /** An empty improvement request is refused by the improvement stage, and that
      refusal comes back as a soft result rather than an exception. It can only
      happen with a data-source type, since the entry check needs one of the two. */
  lemma EmptyImprovementIsSoft(svc: Services, catalog: Catalog, req: Request)
    requires !Raises(svc, req) && req.action == "improve" && !TakesRetryPath(req)
    requires IsEmpty(req.prompt)
    ensures Truthy(req.dataSourceType)
    ensures Generate(svc, catalog, req) == Success(Outcome(None, ImproveErrorPrefix + ImprovementRequired))
  {
  }

  /** A retry that fails still returns the stored design plan. */
  lemma RetryFailureKeepsPlan(svc: Services, catalog: Catalog, req: Request)
    requires !Raises(svc, req) && req.action == "improve" && TakesRetryPath(req)
    requires RetryHtmlFromDesign(svc, ConfiguredModel(svc.config, Rendering), req.designPlan.value, req.prompt,
                                 RequestContext(catalog, req), req.imageUrl, req.interactive).Failure?
    ensures Generate(svc, catalog, req) == Success(Outcome(req.designPlan, RetryErrorPrefix +
      RetryHtmlFromDesign(svc, ConfiguredModel(svc.config, Rendering), req.designPlan.value, req.prompt,
                          RequestContext(catalog, req), req.imageUrl, req.interactive).error))
  {
  }

  /** A successful retry returns the stored plan and the cleaned HTML. */
  lemma RetrySuccessIsCleaned(svc: Services, catalog: Catalog, req: Request, html: string)
    requires !Raises(svc, req) && req.action == "improve" && TakesRetryPath(req)
    requires RetryHtmlFromDesign(svc, ConfiguredModel(svc.config, Rendering), req.designPlan.value, req.prompt,
                                 RequestContext(catalog, req), req.imageUrl, req.interactive) == Success(html)
    ensures Generate(svc, catalog, req) == Success(Outcome(req.designPlan, CleanHtml(html)))
    ensures IsTrimmed(Generate(svc, catalog, req).value.html)
  {
  }

  /** A successful standard improvement returns no design and the cleaned HTML. */
  lemma ImproveSuccessIsCleaned(svc: Services, catalog: Catalog, req: Request, html: string)
    requires !Raises(svc, req) && req.action == "improve" && !TakesRetryPath(req)
    requires ImproveHtml(svc, ConfiguredModel(svc.config, Rendering), req.prompt, req.currentContent,
                         RequestContext(catalog, req), req.imageUrl, req.interactive) == Success(html)
    ensures Generate(svc, catalog, req) == Success(Outcome(None, CleanHtml(html)))
    ensures IsTrimmed(Generate(svc, catalog, req).value.html)
  {
  }

  /** Any failure of a standard improvement (an empty instruction, a missing
      system prompt, a failed completion) comes back as a soft result: no design
      and the prefixed error text, uncleaned. */
  lemma ImproveFailureIsSoft(svc: Services, catalog: Catalog, req: Request)
    requires !Raises(svc, req) && req.action == "improve" && !TakesRetryPath(req)
    requires ImproveHtml(svc, ConfiguredModel(svc.config, Rendering), req.prompt, req.currentContent,
                         RequestContext(catalog, req), req.imageUrl, req.interactive).Failure?
    ensures Generate(svc, catalog, req) == Success(Outcome(None, ImproveErrorPrefix +
      ImproveHtml(svc, ConfiguredModel(svc.config, Rendering), req.prompt, req.currentContent,
                  RequestContext(catalog, req), req.imageUrl, req.interactive).error))
  {
  }

  // ---------------------------------------------------------------------------
  // The data-source type of the rendering stages

  /** As written, the context array never carries a data-source type, so the
      content goal of Stage 2, of an improvement and of a retry is always the
      generic one, even for a product or a category that was found. */
  lemma AsWrittenRenderingGoalIsGeneric(svc: Services, catalog: Catalog, req: Request)
    ensures var ctx := BuildContextAsWritten(catalog, req.dataSourceType, req.sourceId, req.storeId);
      && GoalType(ctx).None?
      && ContentGoalMessage(svc, ctx, req.interactive)
         == UserMessage("Content Goal: " + BasePrompt(svc.config, None, req.interactive))
  {
  }

  /** With the type in the context, the rendering stages choose the goal by type:
      for a product or category with context text, a prompt read from that type's
      own configuration path (its interactive variant for an interactive page)
      rather than the generic one; for a static page it is the very goal Stage 1
      was given. */
  lemma CorrectedRenderingGoalFollowsType(svc: Services, catalog: Catalog, req: Request)
    requires req.dataSourceType == Some("product") || req.dataSourceType == Some("category")
    requires !IsEmpty(CorrectedRequestContext(catalog, req).dataSourceContext)
    ensures GoalType(CorrectedRequestContext(catalog, req)) == req.dataSourceType
    ensures BasePromptPath(GoalType(CorrectedRequestContext(catalog, req)), req.interactive)
         != BasePromptPath(GoalType(BuildContextAsWritten(catalog, req.dataSourceType, req.sourceId, req.storeId)), req.interactive)
    ensures !req.interactive ==>
      ContentGoalMessage(svc, CorrectedRequestContext(catalog, req), req.interactive)
      == UserMessage("Content Goal: " + DesignGoal(svc.config, CorrectedRequestContext(catalog, req), req.dataSourceType))
  {
    BasePromptPathDistinguishes(req.dataSourceType, req.interactive, None, req.interactive);
  }
}

=== FILE: api_client.dfy ===
/** `ApiClient`: the chat-completion request (payload shaping, the provider's
    "retry without tools" fallback, the Authorization header) and the bounded
    tool-calling loop of `getCompletion`.

    The HTTP transport is a deterministic oracle from request payload to response
    body or raised error; the JSON decoding of a response body and of tool-call
    arguments are oracles that may fail. */
module ApiClient {
  import opened Wrappers
  import opened PhpText
  import opened Conversation
  import opened ScopeConfig
  import opened Tools
  import opened ToolPool

  const MaxToolIterations: nat := 5
  const NoToolEndpointsMarker := "No endpoints found that support tool use"
  const InvalidToolCallText := "Error: AI returned an invalid tool call structure."
  const ToolErrorPrefix := "Error executing tool: "
  const UnknownPlaceholder := "unknown"

  // ---------------------------------------------------------------------------
  // Authorization header

  predicate IsAuthorizationHeader(header: string) {
    StartsWith(Lower(header), "authorization:")
  }

  function BearerHeader(apiKey: string): string {
    "Authorization: Bearer " + apiKey
  }

  /** The `array_filter` that drops every header starting, case-insensitively,
      with "authorization:". */
  function WithoutAuthorization(headers: seq<string>): (r: seq<string>)
    ensures |r| <= |headers|
    ensures forall h :: h in r ==> h in headers && !IsAuthorizationHeader(h)
    ensures forall h :: h in headers && !IsAuthorizationHeader(h) ==> h in r
    ensures (forall h :: h in headers ==> !IsAuthorizationHeader(h)) ==> r == headers
  {
    if headers == [] then []
    else if IsAuthorizationHeader(headers[0]) then WithoutAuthorization(headers[1..])
    else [headers[0]] + WithoutAuthorization(headers[1..])
  }

  /** The filter keeps the headers it keeps in their original order: filtering a
      concatenation filters each part and concatenates the results. */
  lemma {:induction false} WithoutAuthorizationAppend(a: seq<string>, b: seq<string>)
    ensures WithoutAuthorization(a + b) == WithoutAuthorization(a) + WithoutAuthorization(b)
    decreases |a|
  {
    if a == [] {
      assert a + b == b;
    } else {
      assert (a + b)[1..] == a[1..] + b;
      WithoutAuthorizationAppend(a[1..], b);
    }
  }

  /** One header is dropped exactly when it is an Authorization header. */
  lemma WithoutAuthorizationSingle(h: string)
    ensures WithoutAuthorization([h]) == if IsAuthorizationHeader(h) then [] else [h]
  {
  }

  lemma BearerIsAuthorization(apiKey: string)
    ensures IsAuthorizationHeader(BearerHeader(apiKey))
  {
    var h := BearerHeader(apiKey);
    assert h[..14] == "Authorization:";
    assert Lower(h)[..14] == "authorization:";
  }

  /** The header list `makeRequest` sends: unchanged when the key is empty;
      otherwise every earlier Authorization header is removed and exactly one
      bearer header for the key is appended last. */
  function RequestHeaders(headers: seq<string>, apiKey: string): (r: seq<string>)
    ensures IsEmpty(apiKey) ==> r == headers
    ensures !IsEmpty(apiKey) ==> |r| > 0 && r[|r| - 1] == BearerHeader(apiKey)
    ensures !IsEmpty(apiKey) ==>
      forall i :: 0 <= i < |r| ==> (IsAuthorizationHeader(r[i]) <==> i == |r| - 1)
    ensures forall h :: h in headers && !IsAuthorizationHeader(h) ==> h in r
    ensures !IsEmpty(apiKey) ==> r == WithoutAuthorization(headers) + [BearerHeader(apiKey)]
  {
    if IsEmpty(apiKey) then headers
    else
      BearerIsAuthorization(apiKey);
      var kept := WithoutAuthorization(headers);
      assert forall i :: 0 <= i < |kept| ==> kept[i] in kept;
      kept + [BearerHeader(apiKey)]
  }

  /** Building the header list twice gives the same list as building it once. */
  lemma RequestHeadersIdempotent(headers: seq<string>, apiKey: string)
    ensures RequestHeaders(RequestHeaders(headers, apiKey), apiKey) == RequestHeaders(headers, apiKey)
  {
    if !IsEmpty(apiKey) {
      var kept := WithoutAuthorization(headers);
      BearerIsAuthorization(apiKey);
      WithoutAuthorizationDropsLast(kept, BearerHeader(apiKey));
    }
  }

  lemma {:induction false} WithoutAuthorizationDropsLast(kept: seq<string>, auth: string)
    requires forall h :: h in kept ==> !IsAuthorizationHeader(h)
    requires IsAuthorizationHeader(auth)
    ensures WithoutAuthorization(kept + [auth]) == kept
    decreases |kept|
  {
    if kept == [] {
      assert [] + [auth] == [auth];
    } else {
      assert (kept + [auth])[1..] == kept[1..] + [auth];
      WithoutAuthorizationDropsLast(kept[1..], auth);
    }
  }

  // ---------------------------------------------------------------------------
  // Request payload and the transport oracle

  /** The chat-completions body: `{model, messages, tools?, tool_choice?}`. */
  datatype Payload = Payload(
    model: string,
    messages: seq<Message>,
    tools: Option<seq<ToolDefinition>>,
    toolChoice: Option<string>)

  /** Payload shaping in `makeAiApiCall`: `tools` and `tool_choice = 'auto'` are
      present only for a non-empty list of tool definitions. */
  function MakePayload(model: string, messages: seq<Message>, tools: Option<seq<ToolDefinition>>): (p: Payload)
    ensures p.model == model && p.messages == messages
    ensures p.tools.Some? <==> tools.Some? && |tools.value| > 0
    ensures p.tools.Some? ==> p.tools == tools
    ensures p.toolChoice.Some? <==> p.tools.Some?
    ensures p.toolChoice.Some? ==> p.toolChoice.value == "auto"
  {
    if tools.Some? && |tools.value| > 0 then Payload(model, messages, tools, Some("auto"))
    else Payload(model, messages, None, None)
  }

  /** An exception out of `makeRequest`: a `LocalizedException` or any other. */
  datatype TransportError = TransportError(message: string, localized: bool)

  /** The decoded response body: `error.message` if set, and `choices[0].message`
      if present and non-empty. */
  datatype Response = Response(error: Option<string>, message: Option<Message>)

  /** `makeRequest` for a chat-completions payload: the raw response body. */
  type Transport = Payload -> Result<string, TransportError>

  /** The provider refused the request because no endpoint supports tool use. */
  predicate RejectsToolUse(r: Result<string, TransportError>) {
    r.Failure? && r.error.localized && Contains(r.error.message, NoToolEndpointsMarker)
  }

  /** What one `makeAiApiCall` does: return a response, raise, or never return. */
  datatype CallOutcome = Sent(response: Result<string, string>) | Diverges

  /** Localized exceptions are rethrown as they are; any other is wrapped. */
  function RethrownMessage(e: TransportError, logId: string): string {
    if e.localized then e.message
    else "An unexpected error occurred calling the AI service [" + logId + "]: " + e.message
  }

  function Settle(r: Result<string, TransportError>, logId: string): CallOutcome {
    if r.Success? then Sent(Success(r.value)) else Sent(Failure(RethrownMessage(r.error, logId)))
  }

  /** The recursive `makeAiApiCall($apiKey, $model, $messages, $logIdentifier)`
      without tools. Its own catch block would re-issue the identical tool-less
      request on the same refusal, with no bound: with a deterministic transport
      that never ends. */
  function RetryWithoutTools(send: Transport, model: string, msgs: seq<Message>, logId: string): CallOutcome {
    var r := send(MakePayload(model, msgs, None));
    if RejectsToolUse(r) then Diverges else Settle(r, logId)
  }

  /** `makeAiApiCall`: send the payload; on a "No endpoints found that support tool
      use" refusal send the same messages again without tools. */
  function CallApi(send: Transport, model: string, msgs: seq<Message>, tools: Option<seq<ToolDefinition>>, logId: string): CallOutcome {
    var r := send(MakePayload(model, msgs, tools));
    if RejectsToolUse(r) then RetryWithoutTools(send, model, msgs, logId) else Settle(r, logId)
  }

  /** The fallback loops for ever exactly when the provider refuses tool use for
      the first request and again for the tool-less one. */
  lemma RetryDivergesIff(send: Transport, model: string, msgs: seq<Message>, tools: Option<seq<ToolDefinition>>, logId: string)
    ensures CallApi(send, model, msgs, tools, logId) == Diverges <==>
      RejectsToolUse(send(MakePayload(model, msgs, tools))) && RejectsToolUse(send(MakePayload(model, msgs, None)))
  {
  }

  /** A refusal followed by a tool-less answer returns that answer: the retry
      sends the same model and messages, with neither `tools` nor `tool_choice`. */
  lemma RetryResendsWithoutTools(send: Transport, model: string, msgs: seq<Message>, tools: Option<seq<ToolDefinition>>, logId: string)
    requires RejectsToolUse(send(MakePayload(model, msgs, tools)))
    requires send(MakePayload(model, msgs, None)).Success?
    ensures CallApi(send, model, msgs, tools, logId) == Sent(Success(send(Payload(model, msgs, None, None)).value))
  {
  }

  /** Without the tool-use refusal there is exactly one request: its body comes
      back as it is, a localized error is rethrown with its own message, and any
      other error is wrapped in a message that names the log identifier. */
  lemma OtherOutcomesSettleAtOnce(send: Transport, model: string, msgs: seq<Message>, tools: Option<seq<ToolDefinition>>, logId: string)
    requires !RejectsToolUse(send(MakePayload(model, msgs, tools)))
    ensures var r := send(MakePayload(model, msgs, tools));
      && (r.Success? ==> CallApi(send, model, msgs, tools, logId) == Sent(Success(r.value)))
      && (r.Failure? && r.error.localized ==> CallApi(send, model, msgs, tools, logId) == Sent(Failure(r.error.message)))
      && (r.Failure? && !r.error.localized ==>
            CallApi(send, model, msgs, tools, logId)
            == Sent(Failure("An unexpected error occurred calling the AI service [" + logId + "]: " + r.error.message)))
  {
  }

  // ---------------------------------------------------------------------------
  // Tool calls

  /** Everything one `getCompletion` call works with besides the conversation. */
  datatype Env = Env(
    kind: string,
    model: string,
    tools: Option<seq<ToolDefinition>>,
    send: Transport,
    parse: string -> Result<Response, string>,
    pool: Pool,
    decode: string -> Result<Args, string>,
    storeId: int)

  /** A tool call with a truthy id, a truthy function name and non-null arguments. */
  predicate WellFormedCall(call: ToolCall) {
    && call.id.Some? && !IsEmpty(call.id.value)
    && call.name.Some? && !IsEmpty(call.name.value)
    && call.arguments.Some?
  }

  /** The `try` block: look the tool up, decode the arguments, execute. */
  function InvokeTool(env: Env, name: string, argumentsJson: string): Result<string, string> {
    var tool :- GetTool(env.pool, name);
    var args :- env.decode(argumentsJson);
    Execute(tool, args, env.storeId)
  }

  /** The `tool` message answering one call. A malformed call gets the fixed
      error text, with "unknown" for a null id or name; a well-formed one gets the
      tool's output, or "Error executing tool: " and the error. */
  function ToolCallReply(env: Env, call: ToolCall): (m: Message)
    ensures m.role == Tool && m.toolCalls == [] && m.content.Text?
    ensures m.toolCallId == Some(call.id.GetOr(UnknownPlaceholder))
    ensures m.name == Some(call.name.GetOr(UnknownPlaceholder))
    ensures !WellFormedCall(call) ==> m.content.text == InvalidToolCallText
    ensures WellFormedCall(call) && InvokeTool(env, call.name.value, call.arguments.value).Success?
            ==> m.content.text == InvokeTool(env, call.name.value, call.arguments.value).value
    ensures WellFormedCall(call) && InvokeTool(env, call.name.value, call.arguments.value).Failure?
            ==> m.content.text == ToolErrorPrefix + InvokeTool(env, call.name.value, call.arguments.value).error
  {
    if !WellFormedCall(call) then
      ToolMessage(call.id.GetOr(UnknownPlaceholder), call.name.GetOr(UnknownPlaceholder), InvalidToolCallText)
    else
      match InvokeTool(env, call.name.value, call.arguments.value)
      case Success(out) => ToolMessage(call.id.value, call.name.value, out)
      case Failure(e) => ToolMessage(call.id.value, call.name.value, ToolErrorPrefix + e)
  }

  /** The `foreach` over a batch: exactly one tool message per call, in call order. */
  function ToolReplies(env: Env, calls: seq<ToolCall>): (r: seq<Message>)
    ensures |r| == |calls|
    ensures forall k :: 0 <= k < |calls| ==> r[k] == ToolCallReply(env, calls[k])
  {
    if calls == [] then [] else [ToolCallReply(env, calls[0])] + ToolReplies(env, calls[1..])
  }

  /** A call naming a tool the pool does not hold is answered in the conversation,
      under the call's own id and name. */
  lemma UnknownToolIsReported(env: Env, call: ToolCall)
    requires WellFormedCall(call) && call.name.value !in env.pool.tools
    ensures ToolCallReply(env, call)
         == ToolMessage(call.id.value, call.name.value,
                        ToolErrorPrefix + "AI Tool with identifier \"" + call.name.value + "\" not found.")
  {
  }

  /** Arguments that do not decode are reported, not raised. */
  lemma UndecodableArgumentsAreReported(env: Env, call: ToolCall)
    requires WellFormedCall(call) && call.name.value in env.pool.tools
    requires env.decode(call.arguments.value).Failure?
    ensures ToolCallReply(env, call)
         == ToolMessage(call.id.value, call.name.value, ToolErrorPrefix + env.decode(call.arguments.value).error)
  {
  }

  /** A registered research tool answers every well-formed call with its fixed text. */
  lemma ResearchCallAnswered(env: Env, call: ToolCall)
    requires WellFormedCall(call) && call.name.value in env.pool.tools
    requires env.pool.tools[call.name.value] == Research
    requires env.decode(call.arguments.value).Success?
    ensures ToolCallReply(env, call) == ToolMessage(call.id.value, call.name.value, ResearchAnswer)
  {
  }

  // ---------------------------------------------------------------------------
  // The loop

  /** Why `getCompletion` raised (or, for `RetriesForever`, never returned). */
  datatype LoopError =
    | MissingApiKey(storeId: int)
    | UnknownModelKind(kind: string)
    | TransportFailed(message: string)
    | MalformedBody(message: string)
    | ProviderError(logId: string, providerMessage: string)
    | UnexpectedFormat(logId: string)
    | EmptyContent(logId: string)
    | MaxIterationsReached
    | NoFinalResponse
    | RetriesForever
  {
    predicate IsConfigError() {
      MissingApiKey? || UnknownModelKind?
    }
  }

  /** The message of the exception raised for each error: a `LocalizedException`
      except for a body the JSON serializer rejects, whose own exception escapes. */
  function ErrorText(e: LoopError): Option<string> {
    match e
    case MissingApiKey(storeId) => Some("OpenRouter API Key is not configured for store " + IntToString(storeId) + ".")
    case UnknownModelKind(kind) => Some("Could not determine AI model for kind \"" + kind + "\".")
    case TransportFailed(message) => Some(message)
    case MalformedBody(message) => Some(message)
    case ProviderError(logId, m) => Some("AI Service Error [" + logId + "]: " + m)
    case UnexpectedFormat(logId) => Some("OpenRouter API returned an unexpected response format [" + logId + "].")
    case EmptyContent(logId) => Some("OpenRouter API returned empty content [" + logId + "].")
    case MaxIterationsReached =>
      Some("Maximum tool execution iterations (" + NatToString(MaxToolIterations) + ") reached.")
    case NoFinalResponse =>
      Some("Maximum tool execution iterations (" + NatToString(MaxToolIterations) + ") reached without a final response.")
    case RetriesForever => None
  }

  /** `sprintf('%s_call%d', $modelKind, $i + 1)`. */
  function LogId(kind: string, i: nat): string {
    kind + "_call" + NatToString(i + 1)
  }

  /** `conversation` extends `msgs` by at least one message, the last of which
      asks for no tools, has content, and trims to `text`. */
  predicate EndsWithFinalReply(conversation: seq<Message>, msgs: seq<Message>, text: string) {
    && |conversation| > |msgs|
    && conversation[|conversation| - 1].toolCalls == []
    && !conversation[|conversation| - 1].content.Absent?
    && text == Trim(ContentText(conversation[|conversation| - 1].content))
  }

  /** How one pass of the loop body ends: it returns or raises, or it carries on
      with the extended conversation. */
  datatype Step =
    | Stop(result: Result<string, LoopError>, conversation: seq<Message>)
    | Continue(conversation: seq<Message>)

  /** The body of the `for` loop at iteration `i`. */
  function Iteration(env: Env, msgs: seq<Message>, i: nat): (s: Step)
    requires i < MaxToolIterations
    ensures msgs <= s.conversation
    ensures s.Stop? && s.result.Failure? ==>
      !s.result.error.IsConfigError() && s.result.error != NoFinalResponse
    ensures s.Stop? && s.result.Success? ==> EndsWithFinalReply(s.conversation, msgs, s.result.value)
    ensures s.Continue? ==> i < MaxToolIterations - 1 && |s.conversation| > |msgs|
  {
    var logId := LogId(env.kind, i);
    match CallApi(env.send, env.model, msgs, env.tools, logId)
    case Diverges => Stop(Failure(RetriesForever), msgs)
    case Sent(Failure(e)) => Stop(Failure(TransportFailed(e)), msgs)
    case Sent(Success(body)) =>
      match env.parse(body)
      case Failure(e) => Stop(Failure(MalformedBody(e)), msgs)
      case Success(response) =>
      if response.error.Some? then Stop(Failure(ProviderError(logId, response.error.value)), msgs)
      else if response.message.None? then Stop(Failure(UnexpectedFormat(logId)), msgs)
      else
        var reply := response.message.value;
        var conversation := msgs + [reply];
        if |reply.toolCalls| > 0 then
          if i == MaxToolIterations - 1 then Stop(Failure(MaxIterationsReached), conversation)
          else Continue(conversation + ToolReplies(env, reply.toolCalls))
        else if reply.content.Absent? then Stop(Failure(EmptyContent(logId)), conversation)
        else Stop(Success(Trim(ContentText(reply.content))), conversation)
  }

  /** The outcome of the loop, the conversation as it stood when it ended, and
      the number of request rounds it started. */
  datatype Run = Run(result: Result<string, LoopError>, conversation: seq<Message>, rounds: nat)

  /** The `for` loop of `getCompletion` from iteration `i` on, including the
      throw after the loop. Whatever happens, the conversation only grows, at most
      the remaining budget of rounds is started (a round sends a second request
      when the provider refuses tool use), and a success is the trimmed content of
      a final reply that asks for no tools. */
  function Round(env: Env, msgs: seq<Message>, i: nat): (run: Run)
    requires i <= MaxToolIterations
    ensures run.rounds <= MaxToolIterations - i
    ensures i < MaxToolIterations ==> run.rounds >= 1
    ensures msgs <= run.conversation
    ensures run.result.Failure? ==> !run.result.error.IsConfigError()
    ensures run.result.Success? ==> EndsWithFinalReply(run.conversation, msgs, run.result.value)
    decreases MaxToolIterations - i
  {
    if i == MaxToolIterations then Run(Failure(NoFinalResponse), msgs, 0)
    else
      match Iteration(env, msgs, i)
      case Stop(result, conversation) => Run(result, conversation, 1)
      case Continue(conversation) =>
        var next := Round(env, conversation, i + 1);
        Run(next.result, next.conversation, next.rounds + 1)
  }

  /** The decoded response to the request of round `i`, when the request returns
      a body that decodes. */
  predicate Answers(env: Env, msgs: seq<Message>, i: nat, response: Response) {
    var outcome := CallApi(env.send, env.model, msgs, env.tools, LogId(env.kind, i));
    outcome.Sent? && outcome.response.Success? && env.parse(outcome.response.value) == Success(response)
  }

  /** The reply the provider gives in a round that returns normally. */
  predicate RepliesWith(env: Env, msgs: seq<Message>, i: nat, reply: Message) {
    Answers(env, msgs, i, Response(None, Some(reply)))
  }

  /** A pass succeeds only on a reply that came back without an error: the reply
      is the one message appended. */
  lemma SuccessIsTheReply(env: Env, msgs: seq<Message>, i: nat)
    requires i < MaxToolIterations
    ensures var s := Iteration(env, msgs, i);
      s.Stop? && s.result.Success? ==>
        |s.conversation| == |msgs| + 1 && RepliesWith(env, msgs, i, s.conversation[|msgs|])
  {
    var s := Iteration(env, msgs, i);
    if s.Stop? && s.result.Success? {
      var outcome := CallApi(env.send, env.model, msgs, env.tools, LogId(env.kind, i));
      assert outcome.Sent? && outcome.response.Success?;
      var response := env.parse(outcome.response.value).value;
      assert response.error.None? && response.message.Some?;
      assert response == Response(None, Some(response.message.value));
      assert s.conversation == msgs + [response.message.value];
    }
  }

  /** The throw after the loop is dead code: every iteration either returns,
      raises, or continues with a smaller remaining budget, and a tool-call reply on
      the last permitted iteration raises inside the loop. */
  lemma {:induction false} PostLoopThrowUnreachable(env: Env, msgs: seq<Message>, i: nat)
    requires i < MaxToolIterations
    ensures Round(env, msgs, i).result != Failure(NoFinalResponse)
    decreases MaxToolIterations - i
  {
    var s := Iteration(env, msgs, i);
    if s.Continue? {
      PostLoopThrowUnreachable(env, s.conversation, i + 1);
    }
  }

  /** A reply without tool calls ends the loop after that one round, returning
      its trimmed content. */
  lemma FinalReplyEndsLoop(env: Env, msgs: seq<Message>, i: nat, reply: Message)
    requires i < MaxToolIterations
    requires RepliesWith(env, msgs, i, reply)
    requires reply.toolCalls == [] && !reply.content.Absent?
    ensures Round(env, msgs, i) == Run(Success(Trim(ContentText(reply.content))), msgs + [reply], 1)
  {
  }

  /** A response carrying `error.message` raises "AI Service Error" with the
      round's log identifier and the provider's message, whatever else it holds;
      nothing is appended to the conversation. */
  lemma ProviderErrorRaises(env: Env, msgs: seq<Message>, i: nat, providerMessage: string, message: Option<Message>)
    requires i < MaxToolIterations
    requires Answers(env, msgs, i, Response(Some(providerMessage), message))
    ensures Round(env, msgs, i) == Run(Failure(ProviderError(LogId(env.kind, i), providerMessage)), msgs, 1)
  {
  }

  /** A response with neither an error nor a first choice's message raises the
      "unexpected response format" error; nothing is appended. */
  lemma MissingMessageRaises(env: Env, msgs: seq<Message>, i: nat)
    requires i < MaxToolIterations
    requires Answers(env, msgs, i, Response(None, None))
    ensures Round(env, msgs, i) == Run(Failure(UnexpectedFormat(LogId(env.kind, i))), msgs, 1)
  {
  }

  /** A reply that asks for no tools and has null content raises the "empty
      content" error after the reply has been appended. */
  lemma AbsentContentRaises(env: Env, msgs: seq<Message>, i: nat, reply: Message)
    requires i < MaxToolIterations
    requires RepliesWith(env, msgs, i, reply)
    requires reply.toolCalls == [] && reply.content.Absent?
    ensures Round(env, msgs, i) == Run(Failure(EmptyContent(LogId(env.kind, i))), msgs + [reply], 1)
  {
  }

  /** Tool calls on the last permitted round raise without executing any of them:
      the conversation ends with the assistant message and no tool message. */
  lemma LastRoundToolCallsRaise(env: Env, msgs: seq<Message>, reply: Message)
    requires RepliesWith(env, msgs, MaxToolIterations - 1, reply)
    requires |reply.toolCalls| > 0
    ensures Round(env, msgs, MaxToolIterations - 1) == Run(Failure(MaxIterationsReached), msgs + [reply], 1)
  {
  }

  /** An earlier tool-call round appends the assistant message verbatim, then one
      tool message per call in call order, and carries on with the next round. */
  lemma ToolRoundAppendsRepliesInOrder(env: Env, msgs: seq<Message>, i: nat, reply: Message)
    requires i < MaxToolIterations - 1
    requires RepliesWith(env, msgs, i, reply)
    requires |reply.toolCalls| > 0
    ensures var extended := msgs + [reply] + ToolReplies(env, reply.toolCalls);
      && Round(env, msgs, i) == Run(Round(env, extended, i + 1).result, Round(env, extended, i + 1).conversation,
                                    Round(env, extended, i + 1).rounds + 1)
      && |extended| == |msgs| + 1 + |reply.toolCalls|
      && extended[|msgs|] == reply
      && forall k :: 0 <= k < |reply.toolCalls| ==>
           extended[|msgs| + 1 + k] == ToolCallReply(env, reply.toolCalls[k])
  {
  }

  /** The inner `foreach`: one tool message per call, appended in call order. */
  method AppendToolReplies(env: Env, base: seq<Message>, calls: seq<ToolCall>) returns (conversation: seq<Message>)
    ensures conversation == base + ToolReplies(env, calls)
  {
    conversation := base;
    var k := 0;
    while k < |calls|
      invariant 0 <= k <= |calls|
      invariant conversation == base + ToolReplies(env, calls[..k])
    {
      ToolRepliesSnoc(env, calls[..k + 1]);
      assert calls[..k + 1][..k] == calls[..k];
      conversation := conversation + [ToolCallReply(env, calls[k])];
      k := k + 1;
    }
    assert calls[..k] == calls;
  }

  lemma ToolRepliesSnoc(env: Env, calls: seq<ToolCall>)
    requires |calls| > 0
    ensures ToolReplies(env, calls) == ToolReplies(env, calls[..|calls| - 1]) + [ToolCallReply(env, calls[|calls| - 1])]
  {
  }

  /** One pass of `getCompletion`'s loop body: send the request, raise on an error
      or a missing message, append the reply, then return its content, raise, or
      answer its tool calls. */
  method LoopBody(env: Env, conversation: seq<Message>, i: nat) returns (step: Step)
    requires i < MaxToolIterations
    ensures step == Iteration(env, conversation, i)
  {
    var logId := LogId(env.kind, i);
    var outcome := CallApi(env.send, env.model, conversation, env.tools, logId);
    if outcome.Diverges? {
      return Stop(Failure(RetriesForever), conversation);
    }
    if outcome.response.Failure? {
      return Stop(Failure(TransportFailed(outcome.response.error)), conversation);
    }
    var parsed := env.parse(outcome.response.value);
    if parsed.Failure? {
      return Stop(Failure(MalformedBody(parsed.error)), conversation);
    }
    var response := parsed.value;
    if response.error.Some? {
      return Stop(Failure(ProviderError(logId, response.error.value)), conversation);
    }
    if response.message.None? {
      return Stop(Failure(UnexpectedFormat(logId)), conversation);
    }
    var reply := response.message.value;
    var extended := conversation + [reply];
    if |reply.toolCalls| == 0 {
      if reply.content.Absent? {
        return Stop(Failure(EmptyContent(logId)), extended);
      }
      return Stop(Success(Trim(ContentText(reply.content))), extended);
    }
    if i == MaxToolIterations - 1 {
      return Stop(Failure(MaxIterationsReached), extended);
    }
    extended := AppendToolReplies(env, extended, reply.toolCalls);
    return Continue(extended);
  }

  /** The `for` loop with the throw after it: at most `MaxToolIterations` passes,
      each of which returns, raises, or carries on with a longer conversation. */
  method CompletionLoop(env: Env, messages: seq<Message>) returns (result: Result<string, LoopError>, conversation: seq<Message>, rounds: nat)
    ensures Run(result, conversation, rounds) == Round(env, messages, 0)
  {
    conversation := messages;
    var i: nat := 0;
    while i < MaxToolIterations
      invariant i <= MaxToolIterations
      invariant Round(env, messages, 0).result == Round(env, conversation, i).result
      invariant Round(env, messages, 0).conversation == Round(env, conversation, i).conversation
      invariant Round(env, messages, 0).rounds == Round(env, conversation, i).rounds + i
      decreases MaxToolIterations - i
    {
      var step := LoopBody(env, conversation, i);
      RoundUnfolds(env, conversation, i, step);
      if step.Stop? {
        return step.result, step.conversation, i + 1;
      }
      conversation := step.conversation;
      i := i + 1;
    }
    result := Failure(NoFinalResponse);
    rounds := i;
  }

  /** One round of the reference loop, in terms of the pass it starts with. */
  lemma RoundUnfolds(env: Env, msgs: seq<Message>, i: nat, step: Step)
    requires i < MaxToolIterations && step == Iteration(env, msgs, i)
    ensures step.Stop? ==> Round(env, msgs, i) == Run(step.result, step.conversation, 1)
    ensures step.Continue? ==>
      && i + 1 <= MaxToolIterations
      && Round(env, msgs, i).result == Round(env, step.conversation, i + 1).result
      && Round(env, msgs, i).conversation == Round(env, step.conversation, i + 1).conversation
      && Round(env, msgs, i).rounds == Round(env, step.conversation, i + 1).rounds + 1
  {
  }

  // ---------------------------------------------------------------------------
  // getCompletion

  /** The ids a pool can resolve, in the order given. */
  function Registered(pool: Pool, ids: seq<string>): (r: seq<string>)
    ensures |r| <= |ids|
    ensures forall id :: id in r <==> id in ids && id in pool.tools
  {
    if ids == [] then []
    else (if ids[0] in pool.tools then [ids[0]] else []) + Registered(pool, ids[1..])
  }

  /** The registered ids of a concatenation are those of each part, in order. */
  lemma {:induction false} RegisteredAppend(pool: Pool, a: seq<string>, b: seq<string>)
    ensures Registered(pool, a + b) == Registered(pool, a) + Registered(pool, b)
    decreases |a|
  {
    if a == [] {
      assert a + b == b;
    } else {
      assert (a + b)[1..] == a[1..] + b;
      assert (a + b)[0] == a[0];
      RegisteredAppend(pool, a[1..], b);
    }
  }

  /** The definitions of tools that are all registered, in order. */
  function DefinitionsOf(pool: Pool, ids: seq<string>): (defs: seq<ToolDefinition>)
    requires forall id :: id in ids ==> id in pool.tools
    ensures |defs| == |ids|
    ensures forall k :: 0 <= k < |ids| ==> defs[k] == Definition(pool.tools[ids[k]])
  {
    if ids == [] then [] else [Definition(pool.tools[ids[0]])] + DefinitionsOf(pool, ids[1..])
  }

  /** The definitions collected before the loop: one per resolvable identifier, in
      order; an identifier the pool cannot resolve is skipped. */
  function ResolveToolDefinitions(pool: Pool, ids: seq<string>): (defs: seq<ToolDefinition>)
    ensures |defs| <= |ids|
    ensures defs == DefinitionsOf(pool, Registered(pool, ids))
    ensures forall id :: id in ids && id in pool.tools ==> Definition(pool.tools[id]) in defs
    ensures forall d :: d in defs ==> exists id :: id in ids && id in pool.tools && d == Definition(pool.tools[id])
  {
    var r := Registered(pool, ids);
    var defs := DefinitionsOf(pool, r);
    forall id | id in ids && id in pool.tools ensures Definition(pool.tools[id]) in defs {
      var k :| 0 <= k < |r| && r[k] == id;
      assert defs[k] == Definition(pool.tools[id]);
    }
    forall d | d in defs ensures exists id :: id in ids && id in pool.tools && d == Definition(pool.tools[id]) {
      var k :| 0 <= k < |defs| && defs[k] == d;
      assert r[k] in r;
    }
    defs
  }

  /** Resolving a concatenation resolves each part, in order: every requested
      identifier contributes its definition once per occurrence, in request order. */
  lemma ResolveToolDefinitionsAppend(pool: Pool, a: seq<string>, b: seq<string>)
    ensures ResolveToolDefinitions(pool, a + b) == ResolveToolDefinitions(pool, a) + ResolveToolDefinitions(pool, b)
  {
    RegisteredAppend(pool, a, b);
    DefinitionsOfAppend(pool, Registered(pool, a), Registered(pool, b));
  }

  /** A single identifier resolves to its definition, or to nothing. */
  lemma ResolveToolDefinitionsSingle(pool: Pool, id: string)
    ensures ResolveToolDefinitions(pool, [id])
         == if id in pool.tools then [Definition(pool.tools[id])] else []
  {
    assert [id][1..] == [];
  }

  lemma DefinitionsOfAppend(pool: Pool, a: seq<string>, b: seq<string>)
    requires forall id :: id in a ==> id in pool.tools
    requires forall id :: id in b ==> id in pool.tools
    ensures DefinitionsOf(pool, a + b) == DefinitionsOf(pool, a) + DefinitionsOf(pool, b)
  {
    assert forall id :: id in a + b ==> id in pool.tools;
    var l := DefinitionsOf(pool, a + b);
    var r := DefinitionsOf(pool, a) + DefinitionsOf(pool, b);
    assert |l| == |r|;
    forall k | 0 <= k < |l| ensures l[k] == r[k] {
      if k < |a| {
        assert (a + b)[k] == a[k];
      } else {
        assert (a + b)[k] == b[k - |a|];
      }
    }
  }

  /** `$toolsToPass`: null when no identifiers were requested. */
  function ToolsToPass(pool: Pool, ids: seq<string>): Option<seq<ToolDefinition>> {
    if |ids| > 0 then Some(ResolveToolDefinitions(pool, ids)) else None
  }

  /** Tools reach the payload only when at least one requested identifier resolves. */
  lemma ToolsSentIffOneResolves(pool: Pool, ids: seq<string>, model: string, msgs: seq<Message>)
    ensures MakePayload(model, msgs, ToolsToPass(pool, ids)).tools.Some?
        <==> exists id :: id in ids && id in pool.tools
  {
    var r := Registered(pool, ids);
    if |r| > 0 {
      assert r[0] in r;
    }
  }

  /** `getCompletion`: a missing key or an unknown kind raises before any request;
      otherwise the loop runs with the kind's model and the resolved tools. */
  function GetCompletion(
    cfg: Config, decrypt: string -> string, messages: seq<Message>, modelKind: string,
    toolIds: seq<string>, storeId: int, send: Transport, parse: string -> Result<Response, string>, pool: Pool,
    decode: string -> Result<Args, string>): (run: Run)
    ensures run.rounds <= MaxToolIterations
    ensures messages <= run.conversation
    ensures !Truthy(ApiKey(cfg, decrypt)) ==> run == Run(Failure(MissingApiKey(storeId)), messages, 0)
    ensures Truthy(ApiKey(cfg, decrypt)) && ParseKind(modelKind).None?
            ==> run == Run(Failure(UnknownModelKind(modelKind)), messages, 0)
    ensures run.rounds == 0 <==> run.result.Failure? && run.result.error.IsConfigError()
    ensures run.result.Success? ==> EndsWithFinalReply(run.conversation, messages, run.result.value)
  {
    var apiKey := ApiKey(cfg, decrypt);
    if !Truthy(apiKey) then Run(Failure(MissingApiKey(storeId)), messages, 0)
    else
      var model := ModelForKind(cfg, modelKind);
      if !Truthy(model) then Run(Failure(UnknownModelKind(modelKind)), messages, 0)
      else Round(Env(modelKind, model.value, ToolsToPass(pool, toolIds), send, parse, pool, decode, storeId), messages, 0)
  }
}

=== FILE: collaborators.dfy ===
/** The collaborators the generators call, as values: the store-scope
    configuration with its decryptor, the prompt-file reader, the theme's Tailwind
    configuration, and the completion service. */
module Collaborators {
  import opened Wrappers
  import opened Conversation
  import opened ScopeConfig

  /** `complete(model, messages)` is the chat completion the stages ask the API
      client for: the generated text, or the message of the `LocalizedException`
      it raised. `promptFile(name)` is `getPromptFromFile`: the trimmed file
      contents, or "" when the file cannot be read. Every configuration read uses
      the store scope of the request, so one store's values are enough. */
  datatype Services = Services(
    config: Config,
    decrypt: string -> string,
    promptFile: string -> string,
    tailwind: Option<string>,
    complete: (string, seq<Message>) -> Result<string, string>)
}

=== FILE: context_builder.dfy ===
/** `AiGenerator::buildContextData`: the store context and the data-source
    context, as "Key: value" lines. Store, product and category lookups are
    oracles that either find the entity or raise `NoSuchEntityException`
    (`None`); `strip_tags` is an oracle too. */
module ContextBuilder {
  import opened Wrappers
  import opened PhpText
  import opened Conversation

  /** One `'Key' => value` entry of `$promptData`: the value as `(string)` renders
      it, or null. */
  type Field = (string, Option<string>)

  /** "Key: value\n", the value passed through `strip_tags`. */
  function FieldLine(key: string, value: string, stripTags: string -> string): string {
    key + ": " + stripTags(value) + "\n"
  }

  /** What one entry contributes: its line, or nothing for an empty value. */
  function EntryText(field: Field, stripTags: string -> string): string {
    if Truthy(field.1) then FieldLine(field.0, field.1.value, stripTags) else ""
  }

  /** The `foreach` over `$promptData`: one line per non-empty value, in order. */
  function FieldLines(fields: seq<Field>, stripTags: string -> string): (r: string)
    ensures fields == [] ==> r == ""
  {
    if fields == [] then "" else EntryText(fields[0], stripTags) + FieldLines(fields[1..], stripTags)
  }

  /** The number of entries whose value is not empty. */
  function NonEmptyCount(fields: seq<Field>): nat {
    if fields == [] then 0 else OneIf(Truthy(fields[0].1)) + NonEmptyCount(fields[1..])
  }

  predicate NoNewline(s: string) {
    forall i :: 0 <= i < |s| ==> s[i] != '\n'
  }

  /** Keys and stripped values without newlines give exactly one line per
      non-empty value: empty values leave no trace. */
  lemma {:induction false} OneLinePerNonEmptyValue(fields: seq<Field>, stripTags: string -> string)
    requires forall i :: 0 <= i < |fields| ==> NoNewline(fields[i].0)
    requires forall i :: 0 <= i < |fields| && fields[i].1.Some? ==> NoNewline(stripTags(fields[i].1.value))
    ensures Count(FieldLines(fields, stripTags), '\n') == NonEmptyCount(fields)
    decreases |fields|
  {
    if fields != [] {
      var (key, value) := fields[0];
      CountAppend(EntryText(fields[0], stripTags), FieldLines(fields[1..], stripTags), '\n');
      if Truthy(value) {
        CountAppend(key + ": " + stripTags(value.value), "\n", '\n');
        CountAppend(key, ": ", '\n');
        CountAppend(key + ": ", stripTags(value.value), '\n');
        CountAbsent(key, '\n');
        CountAbsent(stripTags(value.value), '\n');
        assert Count(": ", '\n') == 0;
        assert Count("\n", '\n') == 1;
      }
      OneLinePerNonEmptyValue(fields[1..], stripTags);
    }
  }

  /** A value of "" or "0" (or null) adds no line wherever it sits. */
  lemma EmptyValueAddsNothing(before: seq<Field>, key: string, value: Option<string>, after: seq<Field>, stripTags: string -> string)
    requires !Truthy(value)
    ensures FieldLines(before + [(key, value)] + after, stripTags) == FieldLines(before + after, stripTags)
  {
    FieldLinesAppend(before, [(key, value)] + after, stripTags);
    assert ([(key, value)] + after)[1..] == after;
    assert before + [(key, value)] + after == before + ([(key, value)] + after);
    FieldLinesAppend(before, after, stripTags);
  }

  lemma {:induction false} FieldLinesAppend(a: seq<Field>, b: seq<Field>, stripTags: string -> string)
    ensures FieldLines(a + b, stripTags) == FieldLines(a, stripTags) + FieldLines(b, stripTags)
    decreases |a|
  {
    if a == [] {
      assert a + b == b;
    } else {
      assert (a + b)[0] == a[0];
      assert (a + b)[1..] == a[1..] + b;
      FieldLinesAppend(a[1..], b, stripTags);
      assert FieldLines(a + b, stripTags)
          == EntryText(a[0], stripTags) + (FieldLines(a[1..], stripTags) + FieldLines(b, stripTags));
    }
  }

  datatype Store = Store(name: string, baseUrl: string, locale: Option<string>)

  /** The values of `$promptData` for a product, each as `(string)` renders it. */
  datatype Product = Product(
    sku: Option<string>, name: Option<string>, finalPrice: Option<string>,
    shortDescription: Option<string>, description: Option<string>, metaDescription: Option<string>)

  /** A category and the names of its enabled, catalog-visible products, in the
      collection's order. */
  datatype Category = Category(id: Option<string>, name: Option<string>, description: Option<string>, productNames: seq<string>)

  /** The product collection is read one page of ten. */
  const CategoryProductLimit: nat := 10

  function ProductFields(p: Product): seq<Field> {
    [("SKU", p.sku), ("Product Name", p.name), ("Price", p.finalPrice),
     ("Short Description", p.shortDescription), ("Full Description", p.description),
     ("Meta Description", p.metaDescription)]
  }

  /** `implode($sep, $parts)`. */
  function Join(parts: seq<string>, sep: string): (r: string)
    ensures parts == [] ==> r == ""
    ensures |parts| == 1 ==> r == parts[0]
  {
    if parts == [] then ""
    else if |parts| == 1 then parts[0]
    else parts[0] + sep + Join(parts[1..], sep)
  }

  function FirstPage(names: seq<string>): (r: seq<string>)
    ensures |r| <= CategoryProductLimit && r <= names
    ensures |names| <= CategoryProductLimit ==> r == names
  {
    if |names| <= CategoryProductLimit then names else names[..CategoryProductLimit]
  }

  function CategoryFields(c: Category): seq<Field> {
    [("Category ID", c.id), ("Category Name", c.name), ("Description", c.description),
     ("Products in this category include", Some(Join(FirstPage(c.productNames), ", ")))]
  }

  /** The lookups `buildContextData` depends on, for the request's store. */
  datatype Catalog = Catalog(
    store: Option<Store>,
    product: string -> Option<Product>,
    category: string -> Option<Category>,
    stripTags: string -> string)

  /** A parenthesised note left in the context when a lookup fails. */
  function Note(text: string): string {
    "(Note: " + text + ")\n"
  }

  /** The store context before trimming. */
  function StoreText(catalog: Catalog, storeId: int): (r: string)
    ensures catalog.store.None? ==> r == Note("Could not retrieve context data for Store ID " + IntToString(storeId))
    ensures catalog.store.Some? ==> StartsWith(r, "Store Name: " + catalog.store.value.name + "\nBase URL: ")
    ensures catalog.store.Some? ==>
      var store := catalog.store.value;
      r == "Store Name: " + store.name + "\nBase URL: " + store.baseUrl + "\n"
        + (if Truthy(store.locale) then "Locale: " + store.locale.value + "\n" else "")
  {
    match catalog.store
    case None => Note("Could not retrieve context data for Store ID " + IntToString(storeId))
    case Some(store) =>
      var r := "Store Name: " + store.name + "\nBase URL: " + store.baseUrl + "\n"
        + (if Truthy(store.locale) then "Locale: " + store.locale.value + "\n" else "");
      assert r[..|"Store Name: " + store.name + "\nBase URL: "|] == "Store Name: " + store.name + "\nBase URL: ";
      r
  }

  function MissingSourceNote(dataSourceType: string, sourceId: string, storeId: int): string {
    Note("Could not retrieve context data for " + dataSourceType + " ID " + sourceId + " in Store ID " + IntToString(storeId))
  }

  /** The data-source context before trimming: empty unless both a type and an
      id are given; field lines for a product or category that is found; a note
      for one that is not; empty for any other type. */
  function DataSourceText(catalog: Catalog, dataSourceType: Option<string>, sourceId: Option<string>, storeId: int): (r: string)
    ensures !Truthy(dataSourceType) || !Truthy(sourceId) ==> r == ""
    ensures Truthy(dataSourceType) && dataSourceType.value != "product" && dataSourceType.value != "category" ==> r == ""
    ensures Truthy(dataSourceType) && Truthy(sourceId) && dataSourceType.value == "product" ==>
      r == (match catalog.product(sourceId.value)
            case Some(p) => FieldLines(ProductFields(p), catalog.stripTags)
            case None => MissingSourceNote("product", sourceId.value, storeId))
    ensures Truthy(dataSourceType) && Truthy(sourceId) && dataSourceType.value == "category" ==>
      r == (match catalog.category(sourceId.value)
            case Some(c) => FieldLines(CategoryFields(c), catalog.stripTags)
            case None => MissingSourceNote("category", sourceId.value, storeId))
  {
    if !Truthy(dataSourceType) || !Truthy(sourceId) then ""
    else if dataSourceType.value == "product" then
      match catalog.product(sourceId.value)
      case Some(p) => FieldLines(ProductFields(p), catalog.stripTags)
      case None => MissingSourceNote("product", sourceId.value, storeId)
    else if dataSourceType.value == "category" then
      match catalog.category(sourceId.value)
      case Some(c) => FieldLines(CategoryFields(c), catalog.stripTags)
      case None => MissingSourceNote("category", sourceId.value, storeId)
    else ""
  }

  /** `buildContextData` as written: the array it returns has only the two
      context strings, so the data-source type is absent. */
  function BuildContextAsWritten(catalog: Catalog, dataSourceType: Option<string>, sourceId: Option<string>, storeId: int): (ctx: ContextData)
    ensures ctx.storeContext == Trim(StoreText(catalog, storeId))
    ensures ctx.dataSourceContext == Trim(DataSourceText(catalog, dataSourceType, sourceId, storeId))
    ensures IsTrimmed(ctx.storeContext) && IsTrimmed(ctx.dataSourceContext)
    ensures ctx.dataSourceType.None?
  {
    TrimIsTrimmed(StoreText(catalog, storeId));
    TrimIsTrimmed(DataSourceText(catalog, dataSourceType, sourceId, storeId));
    ContextData(Trim(StoreText(catalog, storeId)), Trim(DataSourceText(catalog, dataSourceType, sourceId, storeId)), None)
  }

  /** `buildContextData` with the data-source type the stage builders read. */
  function BuildContext(catalog: Catalog, dataSourceType: Option<string>, sourceId: Option<string>, storeId: int): (ctx: ContextData)
    ensures ctx.storeContext == BuildContextAsWritten(catalog, dataSourceType, sourceId, storeId).storeContext
    ensures ctx.dataSourceContext == BuildContextAsWritten(catalog, dataSourceType, sourceId, storeId).dataSourceContext
    ensures ctx.dataSourceType == dataSourceType
  {
    BuildContextAsWritten(catalog, dataSourceType, sourceId, storeId).(dataSourceType := dataSourceType)
  }

  /** The store context is never empty: a store that is found has a name line,
      one that is not has the note. */
  lemma StoreContextNeverEmpty(catalog: Catalog, storeId: int)
    ensures !IsEmpty(BuildContextAsWritten(catalog, None, None, storeId).storeContext)
  {
    var s := StoreText(catalog, storeId);
    assert s[0] == 'S' || s[0] == '(' by {
      if catalog.store.Some? {
        assert s[..12] == "Store Name: ";
        assert s[0] == s[..12][0];
      }
    }
    assert !IsTrimChar(s[0]);
    assert Trim(s) != [];
    assert TrimLeft(s) == s;
  }
}

=== FILE: conversation.dfy ===
/** Chat messages as the OpenRouter chat-completions API exchanges them, and the
    per-request context every stage turns into its leading user messages. */
module Conversation {
  import opened Wrappers
  import opened PhpText

  datatype Role = System | User | Assistant | Tool

  /** One element of a multimodal content array. */
  datatype Part = TextPart(text: string) | ImagePart(url: string)

  /** A message's `content`: absent/null, a plain string, or a parts array. */
  datatype Content = Absent | Text(text: string) | Parts(parts: seq<Part>)

  /** One entry of an assistant message's `tool_calls`, exactly as the provider sent
      it: `id`, `function.name` and `function.arguments` may each be missing. */
  datatype ToolCall = ToolCall(id: Option<string>, name: Option<string>, arguments: Option<string>)

  /** A message: its role and content, the tool calls an assistant message asks
      for, and the `tool_call_id`/`name` a tool message answers. */
  datatype Message = Message(
    role: Role,
    content: Content,
    toolCalls: seq<ToolCall>,
    toolCallId: Option<string>,
    name: Option<string>)

  function SystemMessage(text: string): Message {
    Message(System, Text(text), [], None, None)
  }

  function UserMessage(text: string): Message {
    Message(User, Text(text), [], None, None)
  }

  function ToolMessage(id: string, name: string, text: string): Message {
    Message(Tool, Text(text), [], Some(id), Some(name))
  }

  /** PHP's `(string)` cast of a content value: null is "", an array is "Array". */
  function ContentText(c: Content): string {
    match c
    case Absent => ""
    case Text(t) => t
    case Parts(_) => "Array"
  }

  /** The context built once per generation request: store facts, facts about the
      selected product or category, and (optionally) the data-source type. */
  datatype ContextData = ContextData(storeContext: string, dataSourceContext: string, dataSourceType: Option<string>)

  function StoreContextMessage(ctx: ContextData): Message {
    UserMessage("Store Context:\n" + ctx.storeContext)
  }

  function DataSourceContextMessage(ctx: ContextData): Message {
    UserMessage("Data Source Context:\n" + ctx.dataSourceContext)
  }

  function OneIf(b: bool): nat {
    if b then 1 else 0
  }

  /** The store-context and data-source-context user messages every stage places
      right after its system message, each only when its text is non-empty. */
  function ContextMessages(ctx: ContextData): (r: seq<Message>)
    ensures |r| == OneIf(!IsEmpty(ctx.storeContext)) + OneIf(!IsEmpty(ctx.dataSourceContext))
    ensures forall m :: m in r ==> m.role == User && m.content.Text?
    ensures StoreContextMessage(ctx) in r <==> !IsEmpty(ctx.storeContext)
    ensures DataSourceContextMessage(ctx) in r <==> !IsEmpty(ctx.dataSourceContext)
    ensures !IsEmpty(ctx.storeContext) ==> r[0] == StoreContextMessage(ctx)
    ensures !IsEmpty(ctx.dataSourceContext) ==> r[|r| - 1] == DataSourceContextMessage(ctx)
  {
    assert StoreContextMessage(ctx).content.text[0] == 'S';
    assert DataSourceContextMessage(ctx).content.text[0] == 'D';
    (if IsEmpty(ctx.storeContext) then [] else [StoreContextMessage(ctx)])
    + (if IsEmpty(ctx.dataSourceContext) then [] else [DataSourceContextMessage(ctx)])
  }

  /** The messages every stage sends: its system prompt, the context messages,
      then the stage's own user messages. */
  function Prompt(systemPrompt: string, ctx: ContextData, tail: seq<Message>): (r: seq<Message>)
    ensures |r| == 1 + |ContextMessages(ctx)| + |tail|
    ensures r[0] == SystemMessage(systemPrompt)
    ensures r[1..1 + |ContextMessages(ctx)|] == ContextMessages(ctx)
    ensures r[1 + |ContextMessages(ctx)|..] == tail
  {
    [SystemMessage(systemPrompt)] + ContextMessages(ctx) + tail
  }

  /** Any stretch of a prompt's stage messages sits after the system and
      context messages. */
  lemma PromptSlice(systemPrompt: string, ctx: ContextData, tail: seq<Message>, a: nat, b: nat)
    requires a <= b <= |tail|
    ensures Prompt(systemPrompt, ctx, tail)[1 + |ContextMessages(ctx)| + a..1 + |ContextMessages(ctx)| + b] == tail[a..b]
  {
    var r := Prompt(systemPrompt, ctx, tail);
    var c := |ContextMessages(ctx)|;
    assert r[1 + c + a..1 + c + b] == r[1 + c..][a..b];
  }

  /** The stage message at position `k` of the tail sits after the system and
      context messages. */
  lemma PromptAt(systemPrompt: string, ctx: ContextData, tail: seq<Message>, k: nat)
    requires k < |tail|
    ensures Prompt(systemPrompt, ctx, tail)[1 + |ContextMessages(ctx)| + k] == tail[k]
  {
    var r := Prompt(systemPrompt, ctx, tail);
    assert r[1 + |ContextMessages(ctx)| + k] == r[1 + |ContextMessages(ctx)|..][k];
  }

  /** Where the pieces of a stage request sit when its own messages are one
      message, a run of messages, a pivot message and a last run: each right
      after the other, following the system and context messages. */
  lemma StageLayout(systemPrompt: string, ctx: ContextData, first: Message, middle: seq<Message>, pivot: Message, rest: seq<Message>)
    ensures var r := Prompt(systemPrompt, ctx, [first] + middle + [pivot] + rest);
      var c := |ContextMessages(ctx)|;
      && |r| == 3 + c + |middle| + |rest|
      && r[1 + c] == first
      && r[2 + c..2 + c + |middle|] == middle
      && r[2 + c + |middle|] == pivot
      && r[3 + c + |middle|..] == rest
      && (|rest| > 0 ==> r[|r| - 1] == rest[|rest| - 1])
  {
    StagePieces(first, middle, pivot, rest);
    StagePositions(systemPrompt, ctx, [first] + middle + [pivot] + rest, first, middle, pivot, rest);
  }

  /** A stage request whose own messages are all user messages is well formed. */
  lemma StageWellFormed(systemPrompt: string, ctx: ContextData, first: Message, middle: seq<Message>, pivot: Message, rest: seq<Message>)
    requires first.role == User && pivot.role == User
    requires AllUserText(middle) && AllUserText(rest)
    ensures WellFormedPrompt(Prompt(systemPrompt, ctx, [first] + middle + [pivot] + rest))
  {
    var tail := [first] + middle + [pivot] + rest;
    forall m | m in tail ensures m.role == User {
      assert m in [first] + middle + [pivot] || m in rest;
      assert m in [first] + middle || m == pivot || m in rest;
    }
    PromptWellFormed(systemPrompt, ctx, tail);
  }

  /** The positions `StageLayout` names, for any tail made of those pieces. */
  lemma StagePositions(systemPrompt: string, ctx: ContextData, tail: seq<Message>,
                       first: Message, middle: seq<Message>, pivot: Message, rest: seq<Message>)
    requires |tail| == 2 + |middle| + |rest|
    requires tail[0] == first
    requires tail[1..1 + |middle|] == middle
    requires tail[1 + |middle|] == pivot
    requires tail[2 + |middle|..] == rest
    ensures var r := Prompt(systemPrompt, ctx, tail);
      var c := |ContextMessages(ctx)|;
      && |r| == 3 + c + |middle| + |rest|
      && r[1 + c] == first
      && r[2 + c..2 + c + |middle|] == middle
      && r[2 + c + |middle|] == pivot
      && r[3 + c + |middle|..] == rest
      && (|rest| > 0 ==> r[|r| - 1] == rest[|rest| - 1])
  {
    var n := |middle|;
    PromptAt(systemPrompt, ctx, tail, 0);
    PromptSlice(systemPrompt, ctx, tail, 1, 1 + n);
    PromptAt(systemPrompt, ctx, tail, 1 + n);
    PromptSlice(systemPrompt, ctx, tail, 2 + n, |tail|);
    if |rest| > 0 {
      PromptLast(systemPrompt, ctx, tail, 2 + n);
    }
  }

  /** The last message of a request is the last message of any non-empty
      final stretch of its tail. */
  lemma PromptLast(systemPrompt: string, ctx: ContextData, tail: seq<Message>, k: nat)
    requires k < |tail|
    ensures var r := Prompt(systemPrompt, ctx, tail);
      r[|r| - 1] == tail[k..][|tail| - k - 1]
  {
    PromptAt(systemPrompt, ctx, tail, |tail| - 1);
  }

  /** Where the pieces of `[first] + middle + [pivot] + rest` sit. */
  lemma StagePieces(first: Message, middle: seq<Message>, pivot: Message, rest: seq<Message>)
    ensures var tail := [first] + middle + [pivot] + rest;
      && |tail| == 2 + |middle| + |rest|
      && tail[0] == first
      && tail[1..1 + |middle|] == middle
      && tail[1 + |middle|] == pivot
      && tail[2 + |middle|..] == rest
  {
    var tail := [first] + middle + [pivot] + rest;
    assert tail == [first] + (middle + ([pivot] + rest));
    assert tail[1..] == middle + ([pivot] + rest);
    assert tail[1..][..|middle|] == middle;
    assert tail[1..][|middle|..] == [pivot] + rest;
  }

  /** Messages that are all user messages with plain text content. */
  predicate AllUserText(msgs: seq<Message>) {
    forall m :: m in msgs ==> m.role == User && m.content.Text?
  }

  lemma AllUserTextAppend(a: seq<Message>, b: seq<Message>)
    requires AllUserText(a) && AllUserText(b)
    ensures AllUserText(a + b)
  {
    forall m | m in a + b ensures m.role == User && m.content.Text? {
      assert m in a || m in b;
    }
  }

  /** Every message of a prompt is its system message, a context message, or
      one of the stage's messages. */
  lemma PromptMembers(systemPrompt: string, ctx: ContextData, tail: seq<Message>, m: Message)
    requires m in Prompt(systemPrompt, ctx, tail)
    ensures m == SystemMessage(systemPrompt) || m in ContextMessages(ctx) || m in tail
  {
    var r := Prompt(systemPrompt, ctx, tail);
    var c := |ContextMessages(ctx)|;
    var i :| 0 <= i < |r| && r[i] == m;
    if 0 < i < 1 + c {
      assert r[i] == r[1..1 + c][i - 1];
    } else if i >= 1 + c {
      assert r[i] == r[1 + c..][i - 1 - c];
    }
  }

  /** A stage request: one system message, first, and user messages after it. */
  predicate WellFormedPrompt(msgs: seq<Message>) {
    && |msgs| > 0
    && msgs[0].role == System
    && forall i :: 1 <= i < |msgs| ==> msgs[i].role == User
  }

  /** A prompt whose stage messages are all user messages is well formed. */
  lemma PromptWellFormed(systemPrompt: string, ctx: ContextData, tail: seq<Message>)
    requires forall m :: m in tail ==> m.role == User
    ensures WellFormedPrompt(Prompt(systemPrompt, ctx, tail))
  {
    var r := Prompt(systemPrompt, ctx, tail);
    var c := |ContextMessages(ctx)|;
    forall i | 1 <= i < |r|
      ensures r[i].role == User
    {
      if i < 1 + c {
        assert r[i] == r[1..1 + c][i - 1];
        assert r[i] in ContextMessages(ctx);
      } else {
        assert r[i] == r[1 + c..][i - 1 - c];
        assert r[i] in tail;
      }
    }
  }
}

=== FILE: design_generator.dfy ===
/** `DesignGenerator`: the Stage 1 request to the thinking model, which asks for
    a technical design plan. */
module DesignGenerator {
  import opened Wrappers
  import opened PhpText
  import opened Conversation
  import opened ScopeConfig
  import opened PromptService
  import opened Collaborators

  const DesignSystemPromptFile := "design_system_prompt.txt"
  const DesignPromptMissing := "Could not load design system prompt via PromptService."
  const GoalLabel := "Content Goal: "
  const BareInstructionsLabel := "User's Custom Instructions:"
  const InstructionsLabel := BareInstructionsLabel + " "
  const GraphQlNote :=
    "IMPORTANT "
    + "IMPLEMENTATION NOTE: When generating the HTML and JavaScript, DO NOT hardcode dynamic data "
    + "(like product names, prices, descriptions, category lists, etc.) or actions (like add to cart). Instead, "
    + "implement the necessary logic using Magento 2's GraphQL API. Assume the GraphQL endpoint is available at "
    + "'/graphql'. Use appropriate queries and mutations for data fetching and actions."

  /** The content goal of Stage 1: chosen by the caller's data-source type when
      there is data-source context text, otherwise generic; always the static
      (non-interactive) prompt. */
  function DesignGoal(cfg: Config, ctx: ContextData, dataSourceType: Option<string>): (goal: string)
    ensures IsEmpty(ctx.dataSourceContext) ==> goal == BasePrompt(cfg, None, false)
    ensures !IsEmpty(ctx.dataSourceContext) ==> goal == BasePrompt(cfg, dataSourceType, false)
  {
    BasePrompt(cfg, if !IsEmpty(ctx.dataSourceContext) then dataSourceType else None, false)
  }

  /** The custom-instructions line, present only for a non-empty prompt. */
  function CustomLine(prompt: string): string {
    if IsEmpty(prompt) then "" else InstructionsLabel + prompt + "\n"
  }

  /** The instruction text: "Content Goal: G\n", then "User's Custom
      Instructions: P\n" for a non-empty P, all trimmed. */
  function InstructionText(goal: string, prompt: string): (r: string)
    ensures IsTrimmed(r)
    ensures StartsWith(r, "Content Goal:")
    ensures IsEmpty(prompt) ==> r == TrimRight(GoalLabel + goal)
  {
    var rest := goal + "\n" + CustomLine(prompt);
    LabelledTrim(rest);
    assert IsEmpty(prompt) ==> Trim(GoalLabel + rest) == TrimRight(GoalLabel + goal) by {
      if IsEmpty(prompt) {
        assert GoalLabel + rest == (GoalLabel + goal) + "\n";
        TrimRightBlankSuffix(GoalLabel + goal, "\n");
      }
    }
    Trim(GoalLabel + rest)
  }

  /** Trimming text that starts with the goal label only touches its right end,
      and keeps the label. */
  lemma LabelledTrim(rest: string)
    ensures Trim(GoalLabel + rest) == TrimRight(GoalLabel + rest)
    ensures StartsWith(Trim(GoalLabel + rest), "Content Goal:")
  {
    var lead := "Content Goal:";
    assert GoalLabel == lead + " ";
    assert GoalLabel + rest == lead + (" " + rest);
    LeadingTextKept(lead, " " + rest);
  }

  /** Text that starts with a piece whose first and last characters are not trim
      characters is only trimmed at its right end, and keeps that piece. */
  lemma LeadingTextKept(a: string, b: string)
    requires a != [] && !IsTrimChar(a[0]) && !IsTrimChar(a[|a| - 1])
    ensures Trim(a + b) == TrimRight(a + b)
    ensures StartsWith(Trim(a + b), a)
  {
    assert (a + b)[0] == a[0];
    assert (a + b)[|a| - 1] == a[|a| - 1];
    assert TrimLeft(a + b) == a + b;
    TrimRightKeepsPrefix(a, b);
  }

  /** Trimming the right end never eats into a prefix that ends in a non-trim
      character. */
  lemma TrimRightKeepsPrefix(a: string, b: string)
    requires a != [] && !IsTrimChar(a[|a| - 1])
    ensures |TrimRight(a + b)| >= |a| && TrimRight(a + b)[..|a|] == a
  {
    assert (a + b)[|a| - 1] == a[|a| - 1];
  }

  /** With no custom prompt and a goal that is already trimmed, the instruction
      is just the labelled goal. */
  lemma InstructionWithoutPrompt(goal: string, prompt: string)
    requires IsEmpty(prompt) && goal != [] && IsTrimmed(goal)
    ensures InstructionText(goal, prompt) == GoalLabel + goal
  {
    assert (GoalLabel + goal)[|GoalLabel + goal| - 1] == goal[|goal| - 1];
  }

  /** With a custom prompt that has visible text, the instruction is the goal line
      and the custom-instructions line, the prompt losing only its trailing
      whitespace. */
  lemma InstructionWithPrompt(goal: string, prompt: string)
    requires !IsEmpty(prompt) && TrimRight(prompt) != []
    ensures InstructionText(goal, prompt) == GoalLabel + goal + "\n" + InstructionsLabel + TrimRight(prompt)
  {
    var head := GoalLabel + goal + "\n" + InstructionsLabel;
    var rest := goal + "\n" + CustomLine(prompt);
    assert InstructionText(goal, prompt) == Trim(GoalLabel + rest);
    LabelledTrim(rest);
    assert GoalLabel + rest == head + (prompt + "\n") by {
      Regroup(GoalLabel, goal, "\n", InstructionsLabel, prompt);
    }
    TrimRightBlankSuffix(prompt, "\n");
    TrimRightAppend(head, prompt + "\n");
  }

  /** A prompt of whitespace only is not empty, so the custom-instructions line
      is added; the final trim then removes the prompt and the label's own
      trailing space, leaving the bare label at the end. */
  lemma InstructionWithBlankPrompt(goal: string, prompt: string)
    requires !IsEmpty(prompt) && TrimRight(prompt) == []
    ensures InstructionText(goal, prompt) == GoalLabel + goal + "\n" + BareInstructionsLabel
  {
    var head := GoalLabel + goal + "\n" + BareInstructionsLabel;
    var blank := " " + prompt + "\n";
    var rest := goal + "\n" + CustomLine(prompt);
    assert InstructionText(goal, prompt) == Trim(GoalLabel + rest);
    LabelledTrim(rest);
    assert GoalLabel + rest == head + blank by {
      RegroupBlank(GoalLabel, goal, "\n", BareInstructionsLabel, " ", prompt);
    }
    BlankPromptLine(prompt);
    assert head[|head| - 1] == ':';
    TrimBlankTail(GoalLabel + rest, head, blank);
  }

  /** Trimming text that is only right-trimmed, and ends in trim characters
      after a non-trim one, leaves the text up to that character. */
  lemma TrimBlankTail(x: string, head: string, blank: string)
    requires x == head + blank && Trim(x) == TrimRight(x)
    requires head != [] && !IsTrimChar(head[|head| - 1])
    requires forall i :: 0 <= i < |blank| ==> IsTrimChar(blank[i])
    ensures Trim(x) == head
  {
    TrimRightBlankSuffix(head, blank);
  }

  lemma RegroupBlank(lead: string, goal: string, nl: string, bare: string, space: string, prompt: string)
    ensures lead + (goal + nl + ((bare + space) + prompt + nl)) == (lead + goal + nl + bare) + (space + prompt + nl)
  {
  }

  /** A prompt of whitespace only, between the label's space and the newline,
      is all trim characters. */
  lemma BlankPromptLine(prompt: string)
    requires TrimRight(prompt) == []
    ensures forall i :: 0 <= i < |" " + prompt + "\n"| ==> IsTrimChar((" " + prompt + "\n")[i])
  {
    var blank := " " + prompt + "\n";
    forall i | 0 <= i < |blank| ensures IsTrimChar(blank[i]) {
      if 0 < i < |blank| - 1 {
        assert blank[i] == prompt[i - 1];
      }
    }
  }

  lemma Regroup(lead: string, goal: string, nl: string, instructions: string, prompt: string)
    ensures lead + (goal + nl + (instructions + prompt + nl)) == (lead + goal + nl + instructions) + (prompt + nl)
  {
  }

  /** `buildDesignUserPrompt`. */
  function DesignUserPrompt(cfg: Config, prompt: string, ctx: ContextData, dataSourceType: Option<string>): (r: string)
    ensures r == InstructionText(DesignGoal(cfg, ctx, dataSourceType), prompt)
    ensures IsTrimmed(r) && StartsWith(r, "Content Goal:")
  {
    InstructionText(DesignGoal(cfg, ctx, dataSourceType), prompt)
  }

  /** The Stage 1 messages before the image: system, context, the GraphQL note
      for an interactive page, and the instruction last. */
  function DesignMessages(systemPrompt: string, ctx: ContextData, interactive: bool, userPrompt: string): (r: seq<Message>)
    ensures var c := |ContextMessages(ctx)|;
      && |r| == 2 + c + OneIf(interactive)
      && r[0] == SystemMessage(systemPrompt)
      && r[1..1 + c] == ContextMessages(ctx)
      && (interactive ==> r[1 + c] == UserMessage(GraphQlNote))
      && r[|r| - 1] == UserMessage(userPrompt)
    ensures WellFormedPrompt(r)
    ensures forall m :: m in r ==> m.content.Text?
  {
    var tail := (if interactive then [UserMessage(GraphQlNote)] else []) + [UserMessage(userPrompt)];
    PromptWellFormed(systemPrompt, ctx, tail);
    var r := Prompt(systemPrompt, ctx, tail);
    assert r[1 + |ContextMessages(ctx)|..][0] == tail[0];
    assert forall m :: m in r ==> m.content.Text? by {
      forall m | m in r ensures m.content.Text? {
        PromptMembers(systemPrompt, ctx, tail, m);
      }
    }
    r
  }

  /** The Stage 1 request carries the GraphQL note exactly when an interactive
      page is asked for. */
  lemma GraphQlNoteIffInteractive(systemPrompt: string, ctx: ContextData, interactive: bool,
                                  cfg: Config, prompt: string, dataSourceType: Option<string>)
    ensures var msgs := DesignMessages(systemPrompt, ctx, interactive, DesignUserPrompt(cfg, prompt, ctx, dataSourceType));
      UserMessage(GraphQlNote) in msgs <==> interactive
  {
    var userPrompt := DesignUserPrompt(cfg, prompt, ctx, dataSourceType);
    var msgs := DesignMessages(systemPrompt, ctx, interactive, userPrompt);
    var tail := (if interactive then [UserMessage(GraphQlNote)] else []) + [UserMessage(userPrompt)];
    assert msgs == Prompt(systemPrompt, ctx, tail);
    if interactive {
      assert msgs[1 + |ContextMessages(ctx)|] == UserMessage(GraphQlNote);
    } else if UserMessage(GraphQlNote) in msgs {
      PromptMembers(systemPrompt, ctx, tail, UserMessage(GraphQlNote));
      GraphQlNoteIsNoContext(ctx);
      GraphQlNoteIsNoInstruction(userPrompt);
    }
  }

  lemma GraphQlNoteIsNoContext(ctx: ContextData)
    ensures UserMessage(GraphQlNote) !in ContextMessages(ctx)
  {
    assert GraphQlNote[0] == 'I';
    assert StoreContextMessage(ctx).content.text[0] == 'S';
    assert DataSourceContextMessage(ctx).content.text[0] == 'D';
  }

  /** No instruction text is the GraphQL note: instructions begin with the goal
      label. */
  lemma GraphQlNoteIsNoInstruction(userPrompt: string)
    requires StartsWith(userPrompt, "Content Goal:")
    ensures UserMessage(GraphQlNote) != UserMessage(userPrompt)
  {
    assert GraphQlNote[0] == 'I';
    assert userPrompt[0] == "Content Goal:"[0];
  }

  /** The image step written into `generateDesign`: a last user message becomes
      its text followed by the image; a list that is empty or ends otherwise gets
      a separate "Reference Image:" message. */
  function AttachDesignImage(msgs: seq<Message>, url: Option<string>): (r: seq<Message>)
    requires forall m :: m in msgs ==> m.content.Text?
    ensures !ImageUrlGiven(url) ==> r == msgs
  {
    if !ImageUrlGiven(url) then msgs
    else if |msgs| > 0 && msgs[|msgs| - 1].role == User then
      var last := msgs[|msgs| - 1];
      msgs[|msgs| - 1 := last.(content := Parts([TextPart(last.content.text), ImagePart(Trim(url.value))]))]
    else msgs + [ReferenceImageMessage(Trim(url.value))]
  }

  /** On the Stage 1 messages the inline image step agrees with the shared
      `addReferenceImageToMessages`: the instruction message gains the image, the
      count is unchanged, and the separate-message branch is never taken. */
  lemma DesignImageAgreesWithService(systemPrompt: string, ctx: ContextData, interactive: bool, userPrompt: string, url: Option<string>)
    ensures var msgs := DesignMessages(systemPrompt, ctx, interactive, userPrompt);
      && AttachDesignImage(msgs, url) == AddReferenceImage(msgs, url)
      && |AttachDesignImage(msgs, url)| == |msgs|
      && (ImageUrlGiven(url) ==>
            AttachDesignImage(msgs, url)[|msgs| - 1].content
              == Parts([TextPart(userPrompt), ImagePart(Trim(url.value))]))
  {
    var msgs := DesignMessages(systemPrompt, ctx, interactive, userPrompt);
    assert LastIsUser(msgs);
  }

  /** What `generateDesign` sends: nothing when the system prompt is missing,
      otherwise the Stage 1 messages with the reference image attached. */
  function DesignRequest(svc: Services, prompt: string, ctx: ContextData, dataSourceType: Option<string>,
                         imageUrl: Option<string>, interactive: bool): (r: Result<seq<Message>, string>)
    ensures IsEmpty(svc.promptFile(DesignSystemPromptFile)) <==> r == Failure(DesignPromptMissing)
    ensures r.Success? ==> r.value == AttachDesignImage(
      DesignMessages(svc.promptFile(DesignSystemPromptFile), ctx, interactive,
                     DesignUserPrompt(svc.config, prompt, ctx, dataSourceType)), imageUrl)
  {
    var userPrompt := DesignUserPrompt(svc.config, prompt, ctx, dataSourceType);
    var systemPrompt := svc.promptFile(DesignSystemPromptFile);
    if IsEmpty(systemPrompt) then Failure(DesignPromptMissing)
    else Success(AttachDesignImage(DesignMessages(systemPrompt, ctx, interactive, userPrompt), imageUrl))
  }

  /** `generateDesign`: the thinking model's answer to the Stage 1 request. */
  function GenerateDesign(svc: Services, model: string, prompt: string, ctx: ContextData, dataSourceType: Option<string>,
                          imageUrl: Option<string>, interactive: bool): (r: Result<string, string>)
    ensures IsEmpty(svc.promptFile(DesignSystemPromptFile)) ==> r == Failure(DesignPromptMissing)
    ensures !IsEmpty(svc.promptFile(DesignSystemPromptFile))
            ==> r == svc.complete(model, DesignRequest(svc, prompt, ctx, dataSourceType, imageUrl, interactive).value)
  {
    var msgs :- DesignRequest(svc, prompt, ctx, dataSourceType, imageUrl, interactive);
    svc.complete(model, msgs)
  }
}

=== FILE: fence_cleanup.dfy ===
/** The Markdown-fence cleanup `generate` applies to generated HTML on its
    success path: `preg_replace('/^```(html)?\s*\/i', ...)`, then
    `preg_replace('/\s*```$/i', ...)`, then `trim`. */
module FenceCleanup {
  import opened PhpText

  const Fence := "```"

  /** `\s*` at the front of a string: the leading run of PCRE space characters. */
  function DropLeadingSpace(s: string): (r: string)
    ensures |r| <= |s| && r == s[|s| - |r|..]
    ensures forall i :: 0 <= i < |s| - |r| ==> IsRegexSpace(s[i])
    ensures r == [] || !IsRegexSpace(r[0])
  {
    if |s| > 0 && IsRegexSpace(s[0]) then DropLeadingSpace(s[1..]) else s
  }

  /** `\s*` right before a position: the trailing run of PCRE space characters. */
  function DropTrailingSpace(s: string): (r: string)
    ensures |r| <= |s| && r == s[..|r|]
    ensures forall i :: |r| <= i < |s| ==> IsRegexSpace(s[i])
    ensures r == [] || !IsRegexSpace(r[|r| - 1])
  {
    if |s| > 0 && IsRegexSpace(s[|s| - 1]) then DropTrailingSpace(s[..|s| - 1]) else s
  }

  /** The optional `(html)` group, matched case-insensitively and greedily. */
  predicate HasHtmlTag(s: string) {
    |s| >= 4 && EqualsIgnoreCase(s[..4], "html")
  }

  /** The first replacement: an opening fence, an optional "html" tag and the
      whitespace after them are removed; anything else is left alone. */
  function StripLeadingFence(s: string): (r: string)
    ensures !StartsWith(s, Fence) ==> r == s
    ensures StartsWith(s, Fence) ==> |r| <= |s| - 3 && r == s[|s| - |r|..]
    ensures StartsWith(s, Fence) ==> r == [] || !IsRegexSpace(r[0])
    ensures StartsWith(s, Fence) ==> r == DropLeadingSpace(if HasHtmlTag(s[3..]) then s[7..] else s[3..])
  {
    if !StartsWith(s, Fence) then s
    else
      var afterTicks := s[3..];
      var afterTag := if HasHtmlTag(afterTicks) then afterTicks[4..] else afterTicks;
      DropLeadingSpace(afterTag)
  }

  /** The second replacement. `$` matches at the very end and also before a final
      newline, so a closing fence is found in either place; the whitespace before
      it goes with it and a final newline after it stays. */
  function StripTrailingFence(s: string): (r: string)
    ensures !EndsWith(s, Fence) && !EndsWith(s, Fence + "\n") ==> r == s
    ensures EndsWith(s, Fence) ==> |r| <= |s| - 3 && r == s[..|r|]
    ensures EndsWith(s, Fence) ==> r == [] || !IsRegexSpace(r[|r| - 1])
    ensures EndsWith(s, Fence) ==> r == DropTrailingSpace(s[..|s| - 3])
    ensures EndsWith(s, Fence + "\n") ==> |r| <= |s| - 3 && r == DropTrailingSpace(s[..|s| - 4]) + "\n"
  {
    assert EndsWith(s, Fence) ==> s[|s| - 1] == '`';
    assert EndsWith(s, Fence + "\n") ==> s[|s| - 1] == '\n';
    if EndsWith(s, Fence) then DropTrailingSpace(s[..|s| - 3])
    else if EndsWith(s, Fence + "\n") then DropTrailingSpace(s[..|s| - 4]) + "\n"
    else s
  }

  /** The cleanup as a whole; its result is always trimmed. */
  function CleanHtml(s: string): (r: string)
    ensures IsTrimmed(r)
    ensures |r| <= |s|
  {
    Trim(StripTrailingFence(StripLeadingFence(s)))
  }

  /** Text with no fence at either end is only trimmed. */
  lemma UnfencedIsOnlyTrimmed(s: string)
    requires !StartsWith(s, Fence) && !EndsWith(s, Fence) && !EndsWith(s, Fence + "\n")
    ensures CleanHtml(s) == Trim(s)
  {
  }

  /** Wrapping a body in a fence, tagged "html" in any letter case or untagged,
      and cleaning it up gives back the body, provided the body has no whitespace
      of either kind at its ends. */
  lemma FenceRoundTrip(body: string, tag: string, final: string)
    requires tag == "" || EqualsIgnoreCase(tag, "html")
    requires final == "" || final == "\n"
    requires body != [] && IsTrimmed(body)
    requires !IsRegexSpace(body[0]) && !IsRegexSpace(body[|body| - 1])
    ensures CleanHtml(Fence + tag + "\n" + body + "\n" + Fence + final) == body
  {
    var t := body + "\n" + Fence + final;
    assert Fence + tag + "\n" + body + "\n" + Fence + final == Fence + tag + "\n" + t;
    assert t[0] == body[0];
    OpeningFenceRemoved(tag, t);
    ClosingFenceRemoved(body, final);
    TrimOfFinal(body, final);
  }

  lemma TrimOfFinal(body: string, final: string)
    requires final == "" || final == "\n"
    requires body != [] && IsTrimmed(body)
    ensures Trim(body + final) == body
  {
    TrimOfTrimmed(body);
    if final == "\n" {
      TrimRightBlankSuffix(body, "\n");
      assert (body + "\n")[0] == body[0];
      assert TrimLeft(body + "\n") == body + "\n";
    } else {
      assert body + final == body;
    }
  }

  /** The opening fence, its tag and the newline after it are removed. */
  lemma OpeningFenceRemoved(tag: string, t: string)
    requires tag == "" || EqualsIgnoreCase(tag, "html")
    requires t != [] && !IsRegexSpace(t[0])
    ensures StripLeadingFence(Fence + tag + "\n" + t) == t
  {
    var s := Fence + tag + "\n" + t;
    assert s[..3] == Fence;
    var afterTicks := s[3..];
    assert afterTicks == tag + "\n" + t;
    if tag == "" {
      assert afterTicks == "\n" + t;
      assert !HasHtmlTag(afterTicks) by {
        if |afterTicks| >= 4 { assert afterTicks[..4][0] == '\n'; }
      }
    } else {
      assert afterTicks[..4] == tag;
      assert afterTicks[4..] == "\n" + t;
    }
    DropOneLeadingSpace(t);
  }

  /** The newline, closing fence and optional final newline after a body are
      removed, except the final newline. */
  lemma ClosingFenceRemoved(body: string, final: string)
    requires final == "" || final == "\n"
    requires body != [] && !IsRegexSpace(body[|body| - 1])
    ensures StripTrailingFence(body + "\n" + Fence + final) == body + final
  {
    var s := body + "\n" + Fence + final;
    DropOneTrailingSpace(body);
    if final == "" {
      assert s[|s| - 3..] == Fence;
      assert s[..|s| - 3] == body + "\n";
    } else {
      assert s[|s| - 4..] == Fence + "\n";
      assert s[..|s| - 4] == body + "\n";
    }
  }

  lemma DropOneLeadingSpace(t: string)
    requires t != [] && !IsRegexSpace(t[0])
    ensures DropLeadingSpace("\n" + t) == t
  {
    assert ("\n" + t)[1..] == t;
  }

  lemma DropOneTrailingSpace(t: string)
    requires t != [] && !IsRegexSpace(t[|t| - 1])
    ensures DropTrailingSpace(t + "\n") == t
  {
    assert (t + "\n")[..|t|] == t;
  }

  /** An upper-case tag and a closing fence followed by a newline are both
      removed. */
  lemma CleanHtmlExample()
    ensures CleanHtml("```HTML\n<p>Hi</p>\n```\n") == "<p>Hi</p>"
  {
    assert "```HTML\n<p>Hi</p>\n```\n" == Fence + "HTML" + "\n" + "<p>Hi</p>" + "\n" + Fence + "\n";
    assert EqualsIgnoreCase("HTML", "html");
    FenceRoundTrip("<p>Hi</p>", "HTML", "\n");
  }
}

=== FILE: html_generator.dfy ===
/** `HtmlGenerator`: the three rendering-model requests (Stage 2 from a design
    plan, standard improvement of existing HTML, and a retry of Stage 2), each an
    ordered list of messages sent to the completion service. */
module HtmlGenerator {
  import opened Wrappers
  import opened PhpText
  import opened Conversation
  import opened PromptService
  import opened Collaborators

  const HtmlSystemPromptFile := "html_system_prompt.txt"
  const ImproveSystemPromptFile := "improve_system_prompt.txt"

  const HtmlPromptMissing := "Could not load HTML system prompt via PromptService."
  const ImprovePromptMissing := "Could not load improve system prompt via PromptService."
  const RetryPromptMissing := "Could not load HTML system prompt for retry via PromptService."
  const ImprovementRequired := "An improvement instruction is required in the prompt field when improving content."

  /** The data-source type the content goal is chosen by: the context's type,
      but only when there is data-source context text. */
  function GoalType(ctx: ContextData): (t: Option<string>)
    ensures IsEmpty(ctx.dataSourceContext) ==> t.None?
    ensures !IsEmpty(ctx.dataSourceContext) ==> t == ctx.dataSourceType
  {
    if !IsEmpty(ctx.dataSourceContext) then ctx.dataSourceType else None
  }

  function ContentGoalMessage(svc: Services, ctx: ContextData, interactive: bool): Message {
    UserMessage("Content Goal: " + BasePrompt(svc.config, GoalType(ctx), interactive))
  }

  function DesignPlanMessage(design: string): Message {
    UserMessage("Technical Design Plan:\n" + design)
  }

  const TailwindLabel := "Tailwind Configuration:\n```javascript\n"
  const TailwindReferenceLabel :=
    "Tailwind Configuration (NOTE: this are not available on preview. Use for reference only):\n```javascript\n"
  const CodeClose := "\n```"

  /** The Tailwind message of Stage 2, present only for a truthy configuration. */
  function TailwindMessages(tailwind: Option<string>): (r: seq<Message>)
    ensures AllUserText(r)
    ensures |r| == OneIf(Truthy(tailwind))
    ensures Truthy(tailwind) ==> r == [UserMessage(TailwindLabel + tailwind.value + CodeClose)]
  {
    if Truthy(tailwind) then [UserMessage(TailwindLabel + tailwind.value + CodeClose)] else []
  }

  /** The Tailwind message of improve and retry, which says the configuration is
      for reference only; present only for a truthy configuration. */
  function TailwindReferenceMessages(tailwind: Option<string>): (r: seq<Message>)
    ensures AllUserText(r)
    ensures |r| == OneIf(Truthy(tailwind))
    ensures Truthy(tailwind) ==> r == [UserMessage(TailwindReferenceLabel + tailwind.value + CodeClose)]
  {
    if Truthy(tailwind) then [UserMessage(TailwindReferenceLabel + tailwind.value + CodeClose)] else []
  }

  /** `$currentContent ?: '(empty)'`. */
  function CurrentHtmlMessage(currentContent: Option<string>): Message {
    UserMessage("Current HTML Block:\n" + (if Truthy(currentContent) then currentContent.value else "(empty)"))
  }

  // ---------------------------------------------------------------------------
  // Stage 2

  /** The messages of Stage 2 before the image: system, context, content goal,
      design plan, and Tailwind configuration when there is one. */
  function FromDesignMessages(svc: Services, systemPrompt: string, design: string, ctx: ContextData, interactive: bool): (r: seq<Message>)
    ensures var c := |ContextMessages(ctx)|;
      && |r| == 3 + c + OneIf(Truthy(svc.tailwind))
      && r[0] == SystemMessage(systemPrompt)
      && r[1..1 + c] == ContextMessages(ctx)
      && r[1 + c] == ContentGoalMessage(svc, ctx, interactive)
      && r[2 + c] == DesignPlanMessage(design)
      && r[3 + c..] == TailwindMessages(svc.tailwind)
    ensures WellFormedPrompt(r)
  {
    var goal := ContentGoalMessage(svc, ctx, interactive);
    var plan := DesignPlanMessage(design);
    var tailwind := TailwindMessages(svc.tailwind);
    StageLayout(systemPrompt, ctx, goal, [], plan, tailwind);
    StageWellFormed(systemPrompt, ctx, goal, [], plan, tailwind);
    assert [goal] + [] + [plan] + tailwind == [goal, plan] + tailwind;
    Prompt(systemPrompt, ctx, [goal, plan] + tailwind)
  }

  /** What `generateHtmlFromDesign` sends: nothing when the system prompt is
      missing, otherwise the Stage 2 messages with the reference image attached. */
  function FromDesignRequest(svc: Services, design: string, ctx: ContextData, imageUrl: Option<string>, interactive: bool): (r: Result<seq<Message>, string>)
    ensures IsEmpty(svc.promptFile(HtmlSystemPromptFile)) <==> r == Failure(HtmlPromptMissing)
    ensures r.Success? ==> r.value == AddReferenceImage(FromDesignMessages(svc, svc.promptFile(HtmlSystemPromptFile), design, ctx, interactive), imageUrl)
  {
    var systemPrompt := svc.promptFile(HtmlSystemPromptFile);
    if IsEmpty(systemPrompt) then Failure(HtmlPromptMissing)
    else Success(AddReferenceImage(FromDesignMessages(svc, systemPrompt, design, ctx, interactive), imageUrl))
  }

  /** `generateHtmlFromDesign`: the rendering model's answer to the Stage 2 request. */
  function GenerateHtmlFromDesign(svc: Services, model: string, design: string, ctx: ContextData, imageUrl: Option<string>, interactive: bool): (r: Result<string, string>)
    ensures IsEmpty(svc.promptFile(HtmlSystemPromptFile)) ==> r == Failure(HtmlPromptMissing)
    ensures !IsEmpty(svc.promptFile(HtmlSystemPromptFile))
            ==> r == svc.complete(model, FromDesignRequest(svc, design, ctx, imageUrl, interactive).value)
  {
    var msgs :- FromDesignRequest(svc, design, ctx, imageUrl, interactive);
    svc.complete(model, msgs)
  }

  // ---------------------------------------------------------------------------
  // Standard improvement

  /** The messages of an improvement before the image: system, context, current
      HTML, Tailwind reference, content goal, and the user's request last. */
  function ImproveMessages(svc: Services, systemPrompt: string, prompt: string, currentContent: Option<string>, ctx: ContextData, interactive: bool): (r: seq<Message>)
    ensures var c := |ContextMessages(ctx)|;
      var t := |TailwindReferenceMessages(svc.tailwind)|;
      && |r| == 4 + c + t
      && r[0] == SystemMessage(systemPrompt)
      && r[1..1 + c] == ContextMessages(ctx)
      && r[1 + c] == CurrentHtmlMessage(currentContent)
      && r[2 + c..2 + c + t] == TailwindReferenceMessages(svc.tailwind)
      && r[2 + c + t] == ContentGoalMessage(svc, ctx, interactive)
      && r[|r| - 1] == UserMessage("User's Improvement Request:\n" + prompt)
    ensures WellFormedPrompt(r)
  {
    var current := CurrentHtmlMessage(currentContent);
    var tailwind := TailwindReferenceMessages(svc.tailwind);
    var goal := ContentGoalMessage(svc, ctx, interactive);
    var request := UserMessage("User's Improvement Request:\n" + prompt);
    StageLayout(systemPrompt, ctx, current, tailwind, goal, [request]);
    StageWellFormed(systemPrompt, ctx, current, tailwind, goal, [request]);
    Prompt(systemPrompt, ctx, [current] + tailwind + [goal] + [request])
  }

  /** What `improveHtml` sends. An empty request is refused before the system
      prompt is even read; then a missing system prompt is refused. */
  function ImproveRequest(svc: Services, prompt: string, currentContent: Option<string>, ctx: ContextData, imageUrl: Option<string>, interactive: bool): (r: Result<seq<Message>, string>)
    ensures IsEmpty(prompt) ==> r == Failure(ImprovementRequired)
    ensures !IsEmpty(prompt) && IsEmpty(svc.promptFile(ImproveSystemPromptFile)) ==> r == Failure(ImprovePromptMissing)
    ensures r.Success? <==> !IsEmpty(prompt) && !IsEmpty(svc.promptFile(ImproveSystemPromptFile))
    ensures r.Success? ==> r.value == AddReferenceImage(ImproveMessages(svc, svc.promptFile(ImproveSystemPromptFile), prompt, currentContent, ctx, interactive), imageUrl)
  {
    if IsEmpty(prompt) then Failure(ImprovementRequired)
    else
      var systemPrompt := svc.promptFile(ImproveSystemPromptFile);
      if IsEmpty(systemPrompt) then Failure(ImprovePromptMissing)
      else Success(AddReferenceImage(ImproveMessages(svc, systemPrompt, prompt, currentContent, ctx, interactive), imageUrl))
  }

  /** `improveHtml`: the rendering model's answer to the improvement request. */
  function ImproveHtml(svc: Services, model: string, prompt: string, currentContent: Option<string>, ctx: ContextData, imageUrl: Option<string>, interactive: bool): (r: Result<string, string>)
    ensures IsEmpty(prompt) ==> r == Failure(ImprovementRequired)
    ensures !IsEmpty(prompt) && IsEmpty(svc.promptFile(ImproveSystemPromptFile)) ==> r == Failure(ImprovePromptMissing)
    ensures !IsEmpty(prompt) && !IsEmpty(svc.promptFile(ImproveSystemPromptFile))
            ==> r == svc.complete(model, ImproveRequest(svc, prompt, currentContent, ctx, imageUrl, interactive).value)
  {
    var msgs :- ImproveRequest(svc, prompt, currentContent, ctx, imageUrl, interactive);
    svc.complete(model, msgs)
  }

  // ---------------------------------------------------------------------------
  // Retry of Stage 2

  /** The extra instructions of a retry, present only for a non-empty prompt. */
  function ExtraInstructions(prompt: string): (r: seq<Message>)
    ensures AllUserText(r)
    ensures |r| == OneIf(!IsEmpty(prompt))
    ensures !IsEmpty(prompt) ==> r == [UserMessage("Additional User Instructions for this attempt:\n" + prompt)]
  {
    if IsEmpty(prompt) then [] else [UserMessage("Additional User Instructions for this attempt:\n" + prompt)]
  }

  /** The messages of a retry before the image: system, context, design plan,
      Tailwind reference, content goal, and the extra instructions last. */
  function RetryMessages(svc: Services, systemPrompt: string, design: string, prompt: string, ctx: ContextData, interactive: bool): (r: seq<Message>)
    ensures var c := |ContextMessages(ctx)|;
      var t := |TailwindReferenceMessages(svc.tailwind)|;
      && |r| == 3 + c + t + |ExtraInstructions(prompt)|
      && r[0] == SystemMessage(systemPrompt)
      && r[1..1 + c] == ContextMessages(ctx)
      && r[1 + c] == DesignPlanMessage(design)
      && r[2 + c..2 + c + t] == TailwindReferenceMessages(svc.tailwind)
      && r[2 + c + t] == ContentGoalMessage(svc, ctx, interactive)
      && r[3 + c + t..] == ExtraInstructions(prompt)
    ensures WellFormedPrompt(r)
  {
    var plan := DesignPlanMessage(design);
    var tailwind := TailwindReferenceMessages(svc.tailwind);
    var goal := ContentGoalMessage(svc, ctx, interactive);
    var extra := ExtraInstructions(prompt);
    StageLayout(systemPrompt, ctx, plan, tailwind, goal, extra);
    StageWellFormed(systemPrompt, ctx, plan, tailwind, goal, extra);
    Prompt(systemPrompt, ctx, [plan] + tailwind + [goal] + extra)
  }

  /** What `retryHtmlFromDesign` sends; an empty prompt is allowed. */
  function RetryRequest(svc: Services, design: string, prompt: string, ctx: ContextData, imageUrl: Option<string>, interactive: bool): (r: Result<seq<Message>, string>)
    ensures IsEmpty(svc.promptFile(HtmlSystemPromptFile)) <==> r == Failure(RetryPromptMissing)
    ensures r.Success? ==> r.value == AddReferenceImage(RetryMessages(svc, svc.promptFile(HtmlSystemPromptFile), design, prompt, ctx, interactive), imageUrl)
  {
    var systemPrompt := svc.promptFile(HtmlSystemPromptFile);
    if IsEmpty(systemPrompt) then Failure(RetryPromptMissing)
    else Success(AddReferenceImage(RetryMessages(svc, systemPrompt, design, prompt, ctx, interactive), imageUrl))
  }

  /** `retryHtmlFromDesign`: the rendering model's answer to the retry request. */
  function RetryHtmlFromDesign(svc: Services, model: string, design: string, prompt: string, ctx: ContextData, imageUrl: Option<string>, interactive: bool): (r: Result<string, string>)
    ensures IsEmpty(svc.promptFile(HtmlSystemPromptFile)) ==> r == Failure(RetryPromptMissing)
    ensures !IsEmpty(svc.promptFile(HtmlSystemPromptFile))
            ==> r == svc.complete(model, RetryRequest(svc, design, prompt, ctx, imageUrl, interactive).value)
  {
    var msgs :- RetryRequest(svc, design, prompt, ctx, imageUrl, interactive);
    svc.complete(model, msgs)
  }

  // ---------------------------------------------------------------------------
  // Properties shared by the three requests

  /** The reference image is attached after every text message is in place, so
      it lands on whatever message is last: with a Tailwind configuration, Stage 2
      puts it on the Tailwind message; the count of messages never changes. */
  lemma ImageJoinsLastStageMessage(svc: Services, design: string, ctx: ContextData, imageUrl: Option<string>, interactive: bool)
    requires !IsEmpty(svc.promptFile(HtmlSystemPromptFile)) && ImageUrlGiven(imageUrl)
    ensures var built := FromDesignMessages(svc, svc.promptFile(HtmlSystemPromptFile), design, ctx, interactive);
      var sent := FromDesignRequest(svc, design, ctx, imageUrl, interactive).value;
      && |sent| == |built|
      && sent[..|sent| - 1] == built[..|built| - 1]
      && (Truthy(svc.tailwind) ==>
            sent[|sent| - 1].content == WithImage(TailwindMessages(svc.tailwind)[0].content, Trim(imageUrl.value)))
      && (!Truthy(svc.tailwind) ==>
            sent[|sent| - 1].content == WithImage(DesignPlanMessage(design).content, Trim(imageUrl.value)))
  {
    var built := FromDesignMessages(svc, svc.promptFile(HtmlSystemPromptFile), design, ctx, interactive);
    LastStageMessage(svc, svc.promptFile(HtmlSystemPromptFile), design, ctx, interactive);
    assert FromDesignRequest(svc, design, ctx, imageUrl, interactive).value == AddReferenceImage(built, imageUrl);
  }

  /** The last message of Stage 2 before the image: the Tailwind configuration
      when there is one, the design plan otherwise. */
  lemma LastStageMessage(svc: Services, systemPrompt: string, design: string, ctx: ContextData, interactive: bool)
    ensures var built := FromDesignMessages(svc, systemPrompt, design, ctx, interactive);
      && LastIsUser(built)
      && built[|built| - 1] == (if Truthy(svc.tailwind) then TailwindMessages(svc.tailwind)[0] else DesignPlanMessage(design))
  {
    var built := FromDesignMessages(svc, systemPrompt, design, ctx, interactive);
    var c := |ContextMessages(ctx)|;
    if Truthy(svc.tailwind) {
      assert built[|built| - 1] == built[3 + c..][0];
    } else {
      assert built[|built| - 1] == built[2 + c];
    }
  }

  /** Every request a builder produces is well formed and the image never adds a
      message of its own. */
  lemma RequestsAreWellFormed(svc: Services, design: string, prompt: string, currentContent: Option<string>,
                              ctx: ContextData, imageUrl: Option<string>, interactive: bool)
    ensures var r := FromDesignRequest(svc, design, ctx, imageUrl, interactive);
      r.Success? ==> (WellFormedPrompt(r.value)
        && |r.value| == |FromDesignMessages(svc, svc.promptFile(HtmlSystemPromptFile), design, ctx, interactive)|)
    ensures var r := ImproveRequest(svc, prompt, currentContent, ctx, imageUrl, interactive);
      r.Success? ==> (WellFormedPrompt(r.value)
        && |r.value| == |ImproveMessages(svc, svc.promptFile(ImproveSystemPromptFile), prompt, currentContent, ctx, interactive)|)
    ensures var r := RetryRequest(svc, design, prompt, ctx, imageUrl, interactive);
      r.Success? ==> (WellFormedPrompt(r.value)
        && |r.value| == |RetryMessages(svc, svc.promptFile(HtmlSystemPromptFile), design, prompt, ctx, interactive)|)
  {
    var sp := svc.promptFile(HtmlSystemPromptFile);
    var ip := svc.promptFile(ImproveSystemPromptFile);
    SentKeepsShape(FromDesignRequest(svc, design, ctx, imageUrl, interactive), FromDesignMessages(svc, sp, design, ctx, interactive), imageUrl);
    SentKeepsShape(ImproveRequest(svc, prompt, currentContent, ctx, imageUrl, interactive), ImproveMessages(svc, ip, prompt, currentContent, ctx, interactive), imageUrl);
    SentKeepsShape(RetryRequest(svc, design, prompt, ctx, imageUrl, interactive), RetryMessages(svc, sp, design, prompt, ctx, interactive), imageUrl);
  }

  /** A request built by attaching the image to a well-formed message list with
      a user message after the system one is well formed and just as long. */
  lemma SentKeepsShape(sent: Result<seq<Message>, string>, msgs: seq<Message>, imageUrl: Option<string>)
    requires WellFormedPrompt(msgs) && |msgs| > 1
    requires sent.Success? ==> sent.value == AddReferenceImage(msgs, imageUrl)
    ensures sent.Success? ==> WellFormedPrompt(sent.value) && |sent.value| == |msgs|
  {
    ReferenceImageKeepsPromptShape(msgs, imageUrl);
  }

  /** Without data-source context text the content goal is the generic one,
      whatever type the context carries. */
  lemma GoalIgnoresTypeWithoutDataSourceText(svc: Services, ctx: ContextData, interactive: bool)
    requires IsEmpty(ctx.dataSourceContext)
    ensures ContentGoalMessage(svc, ctx, interactive) == ContentGoalMessage(svc, ctx.(dataSourceType := None), interactive)
    ensures Family(GoalType(ctx)) == GenericFamily
  {
  }
}

=== FILE: php_text.dfy ===
/** The PHP string built-ins the orchestration core relies on.

    A PHP string is a sequence of bytes; here each `char` stands for one byte,
    so `strlen($s)` is `|s|`. */
module PhpText {
  import opened Wrappers

  /** PHP's `empty()` (and falsiness) on a string: only "" and "0" are empty. */
  predicate IsEmpty(s: string) {
    s == "" || s == "0"
  }

  /** PHP truthiness of a `?string`: not null and not empty. */
  predicate Truthy(o: Option<string>) {
    o.Some? && !IsEmpty(o.value)
  }

  /** The characters `trim()` strips by default: " \t\n\r\0\x0B". */
  predicate IsTrimChar(c: char) {
    c == ' ' || c == '\t' || c == '\n' || c == '\r' || c == '\0' || c == '\U{0B}'
  }

  /** The characters PCRE's `\s` matches without the `u` modifier:
      space, \t, \n, \x0B, \f, \r. */
  predicate IsRegexSpace(c: char) {
    c == ' ' || c == '\t' || c == '\n' || c == '\U{0B}' || c == '\U{0C}' || c == '\r'
  }

  /** `ltrim($s)`: drops the leading run of trim characters. */
  function TrimLeft(s: string): (r: string)
    ensures |r| <= |s| && r == s[|s| - |r|..]
    ensures forall i :: 0 <= i < |s| - |r| ==> IsTrimChar(s[i])
    ensures r == [] || !IsTrimChar(r[0])
  {
    if |s| > 0 && IsTrimChar(s[0]) then TrimLeft(s[1..]) else s
  }

  /** `rtrim($s)`: drops the trailing run of trim characters. */
  function TrimRight(s: string): (r: string)
    ensures |r| <= |s| && r == s[..|r|]
    ensures forall i :: |r| <= i < |s| ==> IsTrimChar(s[i])
    ensures r == [] || !IsTrimChar(r[|r| - 1])
    ensures s != [] && !IsTrimChar(s[0]) ==> r != []
  {
    if |s| > 0 && IsTrimChar(s[|s| - 1]) then TrimRight(s[..|s| - 1]) else s
  }

  /** `trim($s)`: the longest slice of `s` that neither starts nor ends with a
      trim character, obtained by cutting only trim characters off both ends. */
  function Trim(s: string): (r: string)
    ensures |r| <= |s|
    ensures r == [] || (!IsTrimChar(r[0]) && !IsTrimChar(r[|r| - 1]))
    ensures r == [] <==> forall i :: 0 <= i < |s| ==> IsTrimChar(s[i])
  {
    var l := TrimLeft(s);
    var r := TrimRight(l);
    assert l != [] ==> s[|s| - |l|] == l[0];
    assert r != [] ==> !IsTrimChar(r[0]) by {
      if r != [] { assert r[0] == l[0]; }
    }
    r
  }

  /** A string that has nothing for `trim()` to remove. */
  predicate IsTrimmed(s: string) {
    s == [] || (!IsTrimChar(s[0]) && !IsTrimChar(s[|s| - 1]))
  }

  lemma TrimOfTrimmed(s: string)
    requires IsTrimmed(s)
    ensures Trim(s) == s
  {
    assert TrimLeft(s) == s;
    assert TrimRight(s) == s;
  }

  lemma TrimIsTrimmed(s: string)
    ensures IsTrimmed(Trim(s))
  {
  }

  /** `trim` is idempotent. */
  lemma TrimIdempotent(s: string)
    ensures Trim(Trim(s)) == Trim(s)
  {
    TrimOfTrimmed(Trim(s));
  }

  /** Trimming the right end of `a + b` only touches `b` when `b` holds a
      non-trim character. */
  lemma {:induction false} TrimRightAppend(a: string, b: string)
    requires TrimRight(b) != []
    ensures TrimRight(a + b) == a + TrimRight(b)
    decreases |b|
  {
    if |b| > 0 && IsTrimChar(b[|b| - 1]) {
      assert (a + b)[..|a + b| - 1] == a + b[..|b| - 1];
      TrimRightAppend(a, b[..|b| - 1]);
    } else {
      assert |b| > 0;
      assert (a + b)[|a + b| - 1] == b[|b| - 1];
    }
  }

  /** When `b` is made of trim characters only, trimming the right end of
      `a + b` removes all of `b`. */
  lemma {:induction false} TrimRightBlankSuffix(a: string, b: string)
    requires forall i :: 0 <= i < |b| ==> IsTrimChar(b[i])
    ensures TrimRight(a + b) == TrimRight(a)
    decreases |b|
  {
    if |b| > 0 {
      assert (a + b)[|a + b| - 1] == b[|b| - 1];
      assert (a + b)[..|a + b| - 1] == a + b[..|b| - 1];
      TrimRightBlankSuffix(a, b[..|b| - 1]);
    } else {
      assert a + b == a;
    }
  }

  predicate StartsWith(s: string, prefix: string) {
    |prefix| <= |s| && s[..|prefix|] == prefix
  }

  predicate EndsWith(s: string, suffix: string) {
    |suffix| <= |s| && s[|s| - |suffix|..] == suffix
  }

  /** `strpos($s, $needle) !== false`. */
  predicate Contains(s: string, needle: string)
    decreases |s|
  {
    StartsWith(s, needle) || (|s| > 0 && Contains(s[1..], needle))
  }

  lemma {:induction false} ContainsSpan(pre: string, needle: string, post: string)
    ensures Contains(pre + needle + post, needle)
    decreases |pre|
  {
    var s := pre + needle + post;
    if |pre| == 0 {
      assert s[..|needle|] == needle;
    } else {
      assert s[1..] == pre[1..] + needle + post;
      ContainsSpan(pre[1..], needle, post);
    }
  }

  /** `strtolower` on one byte (ASCII only, as in PHP 8). */
  function LowerAscii(c: char): (r: char)
    ensures 'A' <= c <= 'Z' ==> r != c && 'a' <= r <= 'z'
    ensures !('A' <= c <= 'Z') ==> r == c
  {
    if 'A' <= c <= 'Z' then (c as int + 32) as char else c
  }

  /** `strtolower($s)`. */
  function Lower(s: string): (r: string)
    ensures |r| == |s|
    ensures forall i :: 0 <= i < |s| ==> r[i] == LowerAscii(s[i])
  {
    seq(|s|, i requires 0 <= i < |s| => LowerAscii(s[i]))
  }

  /** Case-insensitive (ASCII) equality of two strings. */
  predicate EqualsIgnoreCase(a: string, b: string) {
    |a| == |b| && forall i :: 0 <= i < |a| ==> LowerAscii(a[i]) == LowerAscii(b[i])
  }

  function DigitChar(d: nat): (c: char)
    requires d < 10
    ensures '0' <= c <= '9'
  {
    ('0' as int + d) as char
  }

  /** Decimal rendering of a natural number, as PHP's string conversion writes it. */
  function NatToString(n: nat): (r: string)
    ensures |r| > 0
    ensures forall i :: 0 <= i < |r| ==> '0' <= r[i] <= '9'
    decreases n
  {
    if n < 10 then [DigitChar(n)] else NatToString(n / 10) + [DigitChar(n % 10)]
  }

  /** Decimal rendering of an integer, with a leading '-' when negative. */
  function IntToString(i: int): (r: string)
    ensures |r| > 0
    ensures (r[0] == '-') <==> i < 0
  {
    if i < 0 then "-" + NatToString(-i) else NatToString(i)
  }

  /** Number of occurrences of `c` in `s`. */
  function Count(s: string, c: char): nat
  {
    if s == [] then 0 else (if s[0] == c then 1 else 0) + Count(s[1..], c)
  }

  lemma {:induction false} CountAppend(a: string, b: string, c: char)
    ensures Count(a + b, c) == Count(a, c) + Count(b, c)
    decreases |a|
  {
    if a == [] {
      assert a + b == b;
    } else {
      assert (a + b)[1..] == a[1..] + b;
      CountAppend(a[1..], b, c);
    }
  }

  lemma {:induction false} CountAbsent(s: string, c: char)
    requires forall i :: 0 <= i < |s| ==> s[i] != c
    ensures Count(s, c) == 0
    decreases |s|
  {
    if s != [] {
      CountAbsent(s[1..], c);
    }
  }
}

=== FILE: prompt_service.dfy ===
/** `PromptService`: the content-goal base prompt chosen by data-source type, and
    the attachment of a reference image to a message list. */
module PromptService {
  import opened Wrappers
  import opened PhpText
  import opened Conversation
  import opened ScopeConfig

  const ProductPromptPath := "ailand/openrouter/product_base_prompt"
  const CategoryPromptPath := "ailand/openrouter/category_base_prompt"
  const GenericPromptPath := "ailand/openrouter/generic_base_prompt"
  const ProductInteractivePromptPath := "ailand/openrouter/product_interactive_prompt"
  const CategoryInteractivePromptPath := "ailand/openrouter/category_interactive_prompt"
  const GenericInteractivePromptPath := "ailand/openrouter/generic_interactive_prompt"
  const DefaultPrompt := "Generate content based on the provided context."

  /** The three families of base prompt the data-source type selects between. */
  datatype PromptFamily = ProductFamily | CategoryFamily | GenericFamily

  /** The `switch ($dataSourceType)`: 'product' and 'category' have their own
      family; every other type, null included, falls to the generic one. */
  function Family(dataSourceType: Option<string>): (f: PromptFamily)
    ensures f == ProductFamily <==> dataSourceType == Some("product")
    ensures f == CategoryFamily <==> dataSourceType == Some("category")
  {
    if dataSourceType == Some("product") then ProductFamily
    else if dataSourceType == Some("category") then CategoryFamily
    else GenericFamily
  }

  /** The config path of the base prompt for a type and the interactive flag. */
  function BasePromptPath(dataSourceType: Option<string>, interactive: bool): string {
    match Family(dataSourceType)
    case ProductFamily => if interactive then ProductInteractivePromptPath else ProductPromptPath
    case CategoryFamily => if interactive then CategoryInteractivePromptPath else CategoryPromptPath
    case GenericFamily => if interactive then GenericInteractivePromptPath else GenericPromptPath
  }

  /** Each (family, interactive) pair reads its own config path: two lookups
      share a path exactly when they agree on family and on the flag. */
  lemma BasePromptPathDistinguishes(t1: Option<string>, i1: bool, t2: Option<string>, i2: bool)
    ensures BasePromptPath(t1, i1) == BasePromptPath(t2, i2) <==> (Family(t1) == Family(t2) && i1 == i2)
  {
    // The family shows at index 18, right after "ailand/openrouter/"; the
    // interactive paths are longer than their static counterparts.
    assert ProductPromptPath[18] == 'p' && CategoryPromptPath[18] == 'c' && GenericPromptPath[18] == 'g';
    assert ProductInteractivePromptPath[18] == 'p' && CategoryInteractivePromptPath[18] == 'c'
        && GenericInteractivePromptPath[18] == 'g';
    assert |ProductPromptPath| < |ProductInteractivePromptPath|;
    assert |CategoryPromptPath| < |CategoryInteractivePromptPath|;
    assert |GenericPromptPath| < |GenericInteractivePromptPath|;
  }

  /** `getBasePrompt`: the trimmed configured prompt, or the default sentence when
      the config value is null, "" or "0". */
  function BasePrompt(cfg: Config, dataSourceType: Option<string>, interactive: bool): (prompt: string)
    ensures !Truthy(Lookup(cfg, BasePromptPath(dataSourceType, interactive))) ==> prompt == DefaultPrompt
    ensures Truthy(Lookup(cfg, BasePromptPath(dataSourceType, interactive)))
            ==> prompt == Trim(cfg[BasePromptPath(dataSourceType, interactive)])
  {
    var configured := Lookup(cfg, BasePromptPath(dataSourceType, interactive));
    if !Truthy(configured) then DefaultPrompt else Trim(configured.value)
  }

  /** `$url && !empty(trim($url))`: an image URL is attached only when this holds. */
  predicate ImageUrlGiven(url: Option<string>) {
    Truthy(url) && !IsEmpty(Trim(url.value))
  }

  predicate LastIsUser(msgs: seq<Message>) {
    |msgs| > 0 && msgs[|msgs| - 1].role == User
  }

  /** The new content of the last user message: its text (or its existing parts
      when they start with a text part, or a "(Previous content)" stand-in for any
      other shape) followed by the image part. */
  function WithImage(content: Content, url: string): (r: Content)
    ensures r.Parts? && |r.parts| >= 2
    ensures r.parts[0].TextPart? && r.parts[|r.parts| - 1] == ImagePart(url)
    ensures content.Text? ==> r.parts == [TextPart(content.text), ImagePart(url)]
    ensures content.Parts? && |content.parts| > 0 && content.parts[0].TextPart?
            ==> r.parts[..|r.parts| - 1] == content.parts
    ensures !content.Text? && !(content.Parts? && |content.parts| > 0 && content.parts[0].TextPart?)
            ==> r.parts == [TextPart("(Previous content)"), ImagePart(url)]
  {
    var kept :=
      match content
      case Text(t) => [TextPart(t)]
      case Parts(ps) => if |ps| > 0 && ps[0].TextPart? then ps else [TextPart("(Previous content)")]
      case Absent => [TextPart("(Previous content)")];
    assert (kept + [ImagePart(url)])[..|kept|] == kept;
    Parts(kept + [ImagePart(url)])
  }

  function ReferenceImageMessage(url: string): Message {
    Message(User, Parts([TextPart("Reference Image:"), ImagePart(url)]), [], None, None)
  }

  /** `addReferenceImageToMessages`. With no usable URL the list is unchanged.
      Otherwise a last user message gets the image added to its content (every
      other message and every other field untouched), and a list that is empty or
      does not end in a user message gets one new user message with a label and the
      image. Either way the list then ends in a parts array whose last part is the
      image at the trimmed URL. */
  function AddReferenceImage(msgs: seq<Message>, url: Option<string>): (r: seq<Message>)
    ensures !ImageUrlGiven(url) ==> r == msgs
    ensures ImageUrlGiven(url) && LastIsUser(msgs) ==>
      && |r| == |msgs|
      && r[..|r| - 1] == msgs[..|msgs| - 1]
      && r[|r| - 1] == msgs[|msgs| - 1].(content := WithImage(msgs[|msgs| - 1].content, Trim(url.value)))
    ensures ImageUrlGiven(url) && !LastIsUser(msgs) ==>
      r == msgs + [ReferenceImageMessage(Trim(url.value))]
    ensures ImageUrlGiven(url) ==>
      && |r| > 0 && r[|r| - 1].role == User
      && r[|r| - 1].content.Parts?
      && |r[|r| - 1].content.parts| >= 2
      && r[|r| - 1].content.parts[|r[|r| - 1].content.parts| - 1] == ImagePart(Trim(url.value))
  {
    if !ImageUrlGiven(url) then msgs
    else
      var trimmed := Trim(url.value);
      if LastIsUser(msgs) then
        var last := msgs[|msgs| - 1];
        msgs[|msgs| - 1 := last.(content := WithImage(last.content, trimmed))]
      else
        msgs + [ReferenceImageMessage(trimmed)]
  }

  /** Attaching an image keeps a stage request well formed, and a request with at
      least one user message keeps its length: the image joins the last message. */
  lemma ReferenceImageKeepsPromptShape(msgs: seq<Message>, url: Option<string>)
    requires WellFormedPrompt(msgs)
    ensures WellFormedPrompt(AddReferenceImage(msgs, url))
    ensures |msgs| > 1 ==> |AddReferenceImage(msgs, url)| == |msgs|
    ensures |msgs| == 1 && ImageUrlGiven(url) ==> |AddReferenceImage(msgs, url)| == 2
  {
    if ImageUrlGiven(url) {
      if LastIsUser(msgs) {
        ImageJoinsLastUser(msgs, url);
      } else {
        ImageAsOwnMessage(msgs, url);
      }
    }
  }

  lemma ImageJoinsLastUser(msgs: seq<Message>, url: Option<string>)
    requires WellFormedPrompt(msgs) && ImageUrlGiven(url) && LastIsUser(msgs)
    ensures |msgs| > 1
    ensures WellFormedPrompt(AddReferenceImage(msgs, url)) && |AddReferenceImage(msgs, url)| == |msgs|
  {
    var last := msgs[|msgs| - 1];
    var r := msgs[|msgs| - 1 := last.(content := WithImage(last.content, Trim(url.value)))];
    assert AddReferenceImage(msgs, url) == r;
    forall i | 1 <= i < |r| ensures r[i].role == User {
      assert r[i].role == msgs[i].role;
    }
  }

  lemma ImageAsOwnMessage(msgs: seq<Message>, url: Option<string>)
    requires WellFormedPrompt(msgs) && ImageUrlGiven(url) && !LastIsUser(msgs)
    ensures |msgs| == 1
    ensures WellFormedPrompt(AddReferenceImage(msgs, url)) && |AddReferenceImage(msgs, url)| == 2
  {
    var r := msgs + [ReferenceImageMessage(Trim(url.value))];
    assert AddReferenceImage(msgs, url) == r;
    assert r[1].role == User;
  }
}

=== FILE: scope_config.dfy ===
/** Store-scope configuration: the API key and the per-kind model identifiers,
    with the hard-coded model defaults used when the configuration is empty. */
module ScopeConfig {
  import opened Wrappers
  import opened PhpText

  /** The store-scope configuration as a lookup from config path to value;
      a path that is absent reads as `null`. */
  type Config = map<string, string>

  const ApiKeyPath := "ailand/openrouter/api_key"
  const ThinkingModelPath := "ailand/openrouter/thinking_model"
  const RenderingModelPath := "ailand/openrouter/rendering_model"
  const DefaultThinkingModel := "deepseek/deepseek-r1:free"
  const DefaultRenderingModel := "deepseek/deepseek-chat-v3-0324:free"

  function Lookup(cfg: Config, path: string): Option<string> {
    if path in cfg then Some(cfg[path]) else None
  }

  /** The two model kinds a completion may ask for. */
  datatype ModelKind = Thinking | Rendering

  /** The kind named by the caller's string, if it names one. */
  function ParseKind(kind: string): (r: Option<ModelKind>)
    ensures r == Some(Thinking) <==> kind == "thinking"
    ensures r == Some(Rendering) <==> kind == "rendering"
    ensures r.None? <==> kind != "thinking" && kind != "rendering"
  {
    if kind == "thinking" then Some(Thinking)
    else if kind == "rendering" then Some(Rendering)
    else None
  }

  function ModelPath(kind: ModelKind): string {
    match kind
    case Thinking => ThinkingModelPath
    case Rendering => RenderingModelPath
  }

  function DefaultModel(kind: ModelKind): string {
    match kind
    case Thinking => DefaultThinkingModel
    case Rendering => DefaultRenderingModel
  }

  /** `getValue(path) ?: DEFAULT`: the configured model of a kind, or that kind's
      default when the configured value is null, "" or "0". Never empty. */
  function ConfiguredModel(cfg: Config, kind: ModelKind): (model: string)
    ensures !IsEmpty(model)
    ensures Truthy(Lookup(cfg, ModelPath(kind))) ==> model == cfg[ModelPath(kind)]
    ensures !Truthy(Lookup(cfg, ModelPath(kind))) ==> model == DefaultModel(kind)
  {
    var configured := Lookup(cfg, ModelPath(kind));
    if Truthy(configured) then configured.value else DefaultModel(kind)
  }

  /** `ApiClient::getModelForKind`: null for a kind other than 'thinking' or
      'rendering', otherwise the configured model with its default. */
  function ModelForKind(cfg: Config, kind: string): (model: Option<string>)
    ensures model.None? <==> ParseKind(kind).None?
    ensures model.Some? ==> model.value == ConfiguredModel(cfg, ParseKind(kind).value)
    ensures Truthy(model) <==> model.Some?
  {
    match ParseKind(kind)
    case None => None
    case Some(k) => Some(ConfiguredModel(cfg, k))
  }

  /** `getApiKey`: the decrypted key when a key is configured, otherwise null.
      `decrypt` stands for the encryptor, which is not part of this model. */
  function ApiKey(cfg: Config, decrypt: string -> string): (key: Option<string>)
    ensures key.Some? <==> Truthy(Lookup(cfg, ApiKeyPath))
    ensures key.Some? ==> key.value == decrypt(cfg[ApiKeyPath])
  {
    var stored := Lookup(cfg, ApiKeyPath);
    if Truthy(stored) then Some(decrypt(stored.value)) else None
  }

  /** An empty or missing model configuration falls back to the kind's
      hard-coded default, which is one of the two published free models. */
  lemma EmptyModelConfigUsesDefault(cfg: Config, kind: string)
    requires ParseKind(kind).Some? && !Truthy(Lookup(cfg, ModelPath(ParseKind(kind).value)))
    ensures ModelForKind(cfg, kind) == Some(if kind == "thinking" then DefaultThinkingModel else DefaultRenderingModel)
  {
  }
}

=== FILE: tool_pool.dfy ===
/** `AiToolPool`: the registry from tool identifier to tool, validated once at
    construction and read-only afterwards (the pool is an immutable value). */
module ToolPool {
  import opened Wrappers
  import opened Tools

  const ToolInterfaceName := "NeutromeLabs\\AiLand\\Api\\AiToolInterface"

  /** One injected entry: an object implementing the tool interface, or some
      other object (named by its class). */
  datatype Candidate = Implements(tool: Tool) | Foreign(className: string)

  /** The registry: identifiers in registration order and the tool of each. */
  datatype Pool = Pool(keys: seq<string>, tools: map<string, Tool>)

  /** A PHP array has no repeated keys. */
  predicate DistinctKeys<V>(entries: seq<(string, V)>) {
    forall i, j :: 0 <= i < j < |entries| ==> entries[i].0 != entries[j].0
  }

  function EntryKeys<V>(entries: seq<(string, V)>): (keys: seq<string>)
    ensures |keys| == |entries|
    ensures forall i :: 0 <= i < |entries| ==> keys[i] == entries[i].0
  {
    if entries == [] then [] else [entries[0].0] + EntryKeys(entries[1..])
  }

  /** A pool whose key list and map describe the same identifiers. */
  predicate Valid(p: Pool) {
    && (forall i, j :: 0 <= i < j < |p.keys| ==> p.keys[i] != p.keys[j])
    && (forall k :: k in p.keys ==> k in p.tools)
    && (forall k :: k in p.tools ==> k in p.keys)
  }

  function RegistrationError(key: string): string {
    "Tool with key '" + key + "' must implement " + ToolInterfaceName
  }

  predicate AllImplement(entries: seq<(string, Candidate)>) {
    forall i :: 0 <= i < |entries| ==> entries[i].1.Implements?
  }

  /** The validation `foreach`: the position of the first entry that does not
      implement the tool interface, if any. */
  function FirstForeign(entries: seq<(string, Candidate)>): (r: Option<nat>)
    ensures r.None? <==> AllImplement(entries)
    ensures r.Some? ==> r.value < |entries| && entries[r.value].1.Foreign?
    ensures r.Some? ==> forall j :: 0 <= j < r.value ==> entries[j].1.Implements?
  {
    if entries == [] then None
    else if entries[0].1.Foreign? then Some(0)
    else
      var rest := FirstForeign(entries[1..]);
      assert rest.None? ==> AllImplement(entries) by {
        if rest.None? {
          forall i | 0 < i < |entries| ensures entries[i].1.Implements? {
            assert entries[i] == entries[1..][i - 1];
          }
        }
      }
      assert rest.Some? ==> forall j :: 0 <= j < rest.value + 1 ==> entries[j].1.Implements? by {
        if rest.Some? {
          forall j | 0 < j < rest.value + 1 ensures entries[j].1.Implements? {
            assert entries[j] == entries[1..][j - 1];
          }
        }
      }
      if rest.None? then None
      else
        assert entries[rest.value + 1] == entries[1..][rest.value];
        Some(rest.value + 1)
  }

  /** The registered tools by key, for entries that all implement the interface. */
  function ToolMap(entries: seq<(string, Candidate)>): (m: map<string, Tool>)
    requires AllImplement(entries) && DistinctKeys(entries)
    ensures forall k :: k in m ==> k in EntryKeys(entries)
    ensures forall i :: 0 <= i < |entries| ==> entries[i].0 in m && m[entries[i].0] == entries[i].1.tool
  {
    if entries == [] then map[]
    else
      var tail := entries[1..];
      assert forall i :: 0 <= i < |tail| ==> tail[i] == entries[i + 1];
      var rest := ToolMap(tail);
      var m := rest[entries[0].0 := entries[0].1.tool];
      assert forall k :: k in m ==> k in EntryKeys(entries) by {
        assert EntryKeys(entries) == [entries[0].0] + EntryKeys(tail);
      }
      m
  }

  /** The constructor: raises on the first entry that does not implement the
      tool interface, and otherwise keeps every entry under its key. */
  function NewPool(entries: seq<(string, Candidate)>): (r: Result<Pool, string>)
    requires DistinctKeys(entries)
    ensures r.Failure? <==> exists i :: 0 <= i < |entries| && entries[i].1.Foreign?
    ensures r.Failure? ==>
      exists i :: (0 <= i < |entries| && entries[i].1.Foreign?
                   && r.error == RegistrationError(entries[i].0)
                   && forall j :: 0 <= j < i ==> entries[j].1.Implements?)
    ensures r.Success? ==> Valid(r.value) && r.value.keys == EntryKeys(entries)
    ensures r.Success? ==> forall i :: 0 <= i < |entries| ==>
      entries[i].1.Implements? && r.value.tools[entries[i].0] == entries[i].1.tool
  {
    match FirstForeign(entries)
    case Some(i) => Failure(RegistrationError(entries[i].0))
    case None =>
      var keys := EntryKeys(entries);
      var tools := ToolMap(entries);
      assert forall k :: k in keys ==> k in tools by {
        forall k | k in keys ensures k in tools {
          var i :| 0 <= i < |keys| && keys[i] == k;
          assert entries[i].0 in tools;
        }
      }
      Success(Pool(keys, tools))
  }

  /** `getTool($identifier)`. */
  function GetTool(p: Pool, identifier: string): (r: Result<Tool, string>)
    ensures r.Success? <==> identifier in p.tools
  {
    if identifier in p.tools then Success(p.tools[identifier])
    else Failure("AI Tool with identifier \"" + identifier + "\" not found.")
  }

  /** `getAllToolIdentifiers()`. */
  function AllToolIdentifiers(p: Pool): (ids: seq<string>)
    requires Valid(p)
    ensures forall k :: k in ids <==> k in p.tools
  {
    p.keys
  }

  /** Looking up a registered key gives back the very tool registered under it. */
  lemma GetToolFindsRegistered(entries: seq<(string, Candidate)>, i: nat)
    requires DistinctKeys(entries)
    requires NewPool(entries).Success? && i < |entries|
    ensures GetTool(NewPool(entries).value, entries[i].0) == Success(entries[i].1.tool)
  {
  }

  /** Looking up a key nobody registered raises the not-found error. */
  lemma GetToolRejectsUnregistered(entries: seq<(string, Candidate)>, identifier: string)
    requires DistinctKeys(entries)
    requires NewPool(entries).Success?
    requires forall i :: 0 <= i < |entries| ==> entries[i].0 != identifier
    ensures GetTool(NewPool(entries).value, identifier)
         == Failure("AI Tool with identifier \"" + identifier + "\" not found.")
  {
    assert identifier !in NewPool(entries).value.keys;
  }

  /** The identifiers are exactly the registered keys, in registration order. */
  lemma IdentifiersInRegistrationOrder(entries: seq<(string, Candidate)>)
    requires DistinctKeys(entries)
    requires NewPool(entries).Success?
    ensures AllToolIdentifiers(NewPool(entries).value) == EntryKeys(entries)
  {
  }
}

=== FILE: tools.dfy ===
/** The tool capability (`AiToolInterface`): a JSON-schema-like definition handed
    to the provider, and an execute operation that may fail. `Research` is the one
    concrete tool of the module; `External` stands for any other implementation,
    whose behaviour is an oracle. */
module Tools {
  import opened Wrappers
  import opened PhpText

  /** One entry of `parameters.properties`. */
  datatype Property = Property(kind: string, description: string)

  /** The `parameters` object: its `type`, `properties` (in order) and `required`. */
  datatype Parameters = Parameters(kind: string, properties: seq<(string, Property)>, required: seq<string>)

  /** The `function` object of a definition. */
  datatype FunctionSpec = FunctionSpec(name: string, description: string, parameters: Parameters)

  /** `getToolDefinition()`: `{type, function: {name, description, parameters}}`. */
  datatype ToolDefinition = ToolDefinition(kind: string, spec: FunctionSpec)

  /** The decoded arguments of a tool call (a PHP array). */
  type Args = map<string, string>

  datatype Tool =
    | Research
    | External(definition: ToolDefinition, run: (Args, int) -> Result<string, string>)

  const ResearchAnswer := "I dont know"

  const ResearchDefinition := ToolDefinition(
    "function",
    FunctionSpec(
      "research",
      "Research and respond to the prompt.",
      Parameters(
        "object",
        [("prompt", Property("string", "Prompt to research and respond to."))],
        ["prompt"])))

  function PropertyNames(props: seq<(string, Property)>): (names: seq<string>)
    ensures |names| == |props|
    ensures forall i :: 0 <= i < |props| ==> names[i] == props[i].0
  {
    if props == [] then [] else [props[0].0] + PropertyNames(props[1..])
  }

  /** What a definition must look like for the provider: a function type, a
      non-empty name, object parameters with distinct property names, and every
      required name declared as a property. */
  predicate WellFormedDefinition(d: ToolDefinition) {
    var names := PropertyNames(d.spec.parameters.properties);
    && d.kind == "function"
    && d.spec.name != ""
    && d.spec.parameters.kind == "object"
    && (forall i, j :: 0 <= i < j < |names| ==> names[i] != names[j])
    && (forall r :: r in d.spec.parameters.required ==> r in names)
  }

  /** `getToolDefinition()` of a tool; for `Research` a constant that depends on
      no configuration and no store. */
  function Definition(t: Tool): ToolDefinition {
    match t
    case Research => ResearchDefinition
    case External(d, _) => d
  }

  /** `execute($arguments, $storeId)`: the tool's answer, or the message of the
      exception it raised. */
  function Execute(t: Tool, args: Args, storeId: int): Result<string, string> {
    match t
    case Research => Success(ResearchAnswer)
    case External(_, run) => run(args, storeId)
  }

  /** The research definition is a function named 'research' whose only
      parameter is the required string 'prompt'. */
  lemma ResearchDefinitionShape()
    ensures WellFormedDefinition(Definition(Research))
    ensures Definition(Research).kind == "function"
    ensures Definition(Research).spec.name == "research"
    ensures Definition(Research).spec.parameters.kind == "object"
    ensures PropertyNames(Definition(Research).spec.parameters.properties) == ["prompt"]
    ensures Definition(Research).spec.parameters.properties[0].1.kind == "string"
    ensures Definition(Research).spec.parameters.required == ["prompt"]
  {
    assert PropertyNames(ResearchDefinition.spec.parameters.properties) == ["prompt"];
  }

  /** The research tool never fails and answers the same text for every
      argument map and every store. */
  lemma ResearchAlwaysAnswers(args: Args, storeId: int)
    ensures Execute(Research, args, storeId) == Success(ResearchAnswer)
    ensures Execute(Research, args, storeId).Success?
  {
  }
}

=== FILE: wrappers.dfy ===
/** Option and Result, the failure-compatible wrappers the rest of the model uses
    for PHP's nullable values and for operations that may raise. */
module Wrappers {

  /** A PHP value that may be `null`. */
  datatype Option<+T> = None | Some(value: T) {

    predicate IsFailure() {
      None?
    }

    function PropagateFailure<U>(): Option<U>
      requires None?
    {
      None
    }

    function Extract(): T
      requires Some?
    {
      value
    }

    /** PHP's `$x ?? $default`. */
    function GetOr(default: T): T {
      match this
      case Some(v) => v
      case None => default
    }
  }

  /** The outcome of a PHP call that either returns a value or raises;
      `Failure` carries the exception's message. */
  datatype Result<+R, +E> = Success(value: R) | Failure(error: E) {

    predicate IsFailure() {
      Failure?
    }

    function PropagateFailure<U>(): Result<U, E>
      requires Failure?
    {
      Failure(error)
    }

    function Extract(): R
      requires Success?
    {
      value
    }
  }
}
